=== FILE: README.md ===
# Kafka source consumer: offset commit and partition ownership, in Dafny

This project models the bookkeeping at the heart of `KafkaSourceCustomConsumer`,
the Kafka source of Data Prepper. It covers how the consumer tracks which partitions
it owns and under which ownership epoch. It also covers how the offset ranges of each
poll are tied to an acknowledgement set, how positive and negative acknowledgements
flow back, and how the released offsets are committed or reset.

The consumer's maps, sets and queues are changed inside `synchronized` blocks: by the
consumer thread, by the rebalance listener, and by the acknowledgement callbacks. The
model is a sequential state machine: an immutable `State` record and one pure function
per transition, each transition one such critical section taken as atomic. The pending
acknowledgement counter is the exception; see "Left out".

- `ConsumerState` (`state.dfy`): partitions, offset ranges, commit trackers, the
  environment and the state record.
- `OffsetCommit` (`commit.dfy`): `updateOffsetsToCommit`, `processAcknowledgedOffsets`
  and `commitOffsets`.
- `PartitionReset` (`reset.dfy`): `resetOffsets`.
- `Rebalance` (`rebalance.dfy`): `onPartitionsAssigned` and `onPartitionsRevoked`.
- `Acknowledgement` (`acknowledgement.dfy`): the acknowledgement-set callback.
- `Polling` (`polling.dfy`): `consumeRecords` and the range/epoch logic of
  `iterateRecordPartitions`.
- `ConsumerMachine` (`machine.dfy`): all steps together. It proves the whole-machine
  invariant and the rebalance scenarios.

The Kafka client is an `Environment` of answers:
- `committed(p)` may throw, return null, or return an offset.
- A seek or a `commitSync` may be accepted or throw.

Seeks and commits are appended to an effect log, together with whether they were
accepted. Epochs come from the wall clock in the source (`getCurrentTimeNanos`). Here
they are a parameter of the assignment step, and `now` is a parameter of commits.

`TopicPartitionCommitTracker` is not part of this model. A tracker is represented
only by what it was built from and what it was fed:
- the partition;
- the committed offset it was seeded with;
- the completed ranges, in order.

What `addCompletedOffsets` returns is an environment function of that history.

The order in which a `HashMap` or `HashSet` is iterated is unspecified, so it is an
input:
- an acknowledgement set's offsets are a sequence of entries with distinct partitions;
- `resetOffsets` takes an enumeration of the pending set.

The acknowledgement manager's sets whose callback has not fired yet are kept in
`State.outstanding`. This is environment state: it lets the machine fire each callback
exactly once and keeps the invariant closed.

Places where the code does less than one might expect, modelled as written:
- A failing `commitSync` still empties `offsetsToCommit` and advances `lastCommitTime`
  (lines 254-260).
- A failing seek in `resetOffsets` still leaves `partitionsToReset` empty (lines
  206-210).
- `committed()` in `onPartitionsAssigned` is only used for logging, but it is not
  inside a `try`. A lookup that throws therefore ends the assignment loop, and the
  partitions before it stay assigned. The model returns this as a `false` flag.
- The range of a partition is `Range.between(first, last)`. It is ordered by value,
  not by position.
- Commit trackers are keyed by partition index alone (line 78). The consumer subscribes
  to a single topic (line 270), so the index identifies the partition and no tracker is
  shared. The model allows any topic in a partition and keeps the index-only key as
  written. With several topics, revoking or assigning a partition would also drop the
  tracker of another topic's partition with the same index; one consumer never sees
  this.

## Model

All source paths are under `data-prepper-plugins/kafka-plugins/src/main/java/org/opensearch/dataprepper/plugins/kafka/consumer/`; the table spells them out.

| member | source | states |
|---|---|---|
| ConsumerState.Between | data-prepper-plugins/kafka-plugins/src/main/java/org/opensearch/dataprepper/plugins/kafka/consumer/KafkaSourceCustomConsumer.java:388-390 | the recorded range spans the first and the last polled offset, with min <= max whatever their order |
| ConsumerState.Seed | data-prepper-plugins/kafka-plugins/src/main/java/org/opensearch/dataprepper/plugins/kafka/consumer/KafkaSourceCustomConsumer.java:223-224 | a new tracker's seed is null exactly when nothing was committed, else the committed offset |
| ConsumerState.ResetTarget | data-prepper-plugins/kafka-plugins/src/main/java/org/opensearch/dataprepper/plugins/kafka/consumer/KafkaSourceCustomConsumer.java:198-204 | a reset seeks to the committed offset, to 0 when none exists, and nowhere when the lookup throws |
| OffsetCommit.UpdateOffsetsToCommit | data-prepper-plugins/kafka-plugins/src/main/java/org/opensearch/dataprepper/plugins/kafka/consumer/KafkaSourceCustomConsumer.java:123-133 | a null offset leaves the map unchanged; otherwise only that partition's entry is overwritten and every other entry is kept |
| OffsetCommit.ApplyEntry | data-prepper-plugins/kafka-plugins/src/main/java/org/opensearch/dataprepper/plugins/kafka/consumer/KafkaSourceCustomConsumer.java:217-235 | a stale entry changes nothing; a current one feeds its range to the existing tracker, or to a new one seeded from the committed offset; a throwing lookup drops the entry; the tracker's answer is what gets scheduled; nothing but trackers and offsetsToCommit changes |
| OffsetCommit.ApplyAllStale | data-prepper-plugins/kafka-plugins/src/main/java/org/opensearch/dataprepper/plugins/kafka/consumer/KafkaSourceCustomConsumer.java:216-219 | a run of entries that are all stale leaves the whole state unchanged |
| OffsetCommit.ApplyAllFeedsExisting | data-prepper-plugins/kafka-plugins/src/main/java/org/opensearch/dataprepper/plugins/kafka/consumer/KafkaSourceCustomConsumer.java:216-231 | an existing tracker is fed exactly the ranges of the current entries for its index, in queue order; its partition and seed are kept |
| OffsetCommit.ApplyAllCreates | data-prepper-plugins/kafka-plugins/src/main/java/org/opensearch/dataprepper/plugins/kafka/consumer/KafkaSourceCustomConsumer.java:219-228 | a tracker that did not exist before was created for a current entry's partition with that index, and seeded from that partition's committed offset |
| OffsetCommit.ApplyAllCreatesExactly | data-prepper-plugins/kafka-plugins/src/main/java/org/opensearch/dataprepper/plugins/kafka/consumer/KafkaSourceCustomConsumer.java:219-231 | a missing tracker exists after the entries exactly when one of them is current, has its index and a lookup that does not throw; it is built from the first such entry, seeded from its committed offset, and fed that range followed by the later current ranges for its index |
| OffsetCommit.ApplyAll | data-prepper-plugins/kafka-plugins/src/main/java/org/opensearch/dataprepper/plugins/kafka/consumer/KafkaSourceCustomConsumer.java:216-237 | handling the entries in order changes only trackers and offsetsToCommit, and neither loses a key |
| OffsetCommit.ApplyAllOffsets | data-prepper-plugins/kafka-plugins/src/main/java/org/opensearch/dataprepper/plugins/kafka/consumer/KafkaSourceCustomConsumer.java:229-231 | offsetsToCommit never loses a key, and changes only at partitions of current entries |
| OffsetCommit.ApplyAllReleases | data-prepper-plugins/kafka-plugins/src/main/java/org/opensearch/dataprepper/plugins/kafka/consumer/KafkaSourceCustomConsumer.java:216-237 | only what a tracker releases during the run is scheduled: every value of offsetsToCommit the entries change is an answer the tracker for that index gave after one of the ranges fed in this run, never an answer from before it |
| OffsetCommit.ApplyAllAppend | data-prepper-plugins/kafka-plugins/src/main/java/org/opensearch/dataprepper/plugins/kafka/consumer/KafkaSourceCustomConsumer.java:216-237 | the queue is handled entry by entry: handling a concatenation is handling one part after the other |
| OffsetCommit.ProcessAcknowledgedOffsets | data-prepper-plugins/kafka-plugins/src/main/java/org/opensearch/dataprepper/plugins/kafka/consumer/KafkaSourceCustomConsumer.java:214-239 | the acknowledged queue is empty afterwards, and only trackers and offsetsToCommit may differ |
| OffsetCommit.ProcessAcknowledgedOffsetsSpec | data-prepper-plugins/kafka-plugins/src/main/java/org/opensearch/dataprepper/plugins/kafka/consumer/KafkaSourceCustomConsumer.java:214-239 | draining the queue feeds existing trackers the current ranges for their index; a missing tracker is created exactly when a current entry for its index has a working lookup, from the first such entry: that partition, seeded from its committed offset, fed that entry's range and the current ranges for the index after it; offsetsToCommit changes only at current partitions; every value it changes to is one the tracker for that partition's index answered after a range fed in this drain, never an answer from before it |
| OffsetCommit.ProcessAcknowledgedOffsetsStale | data-prepper-plugins/kafka-plugins/src/main/java/org/opensearch/dataprepper/plugins/kafka/consumer/KafkaSourceCustomConsumer.java:216-219 | when every queued entry carries a superseded epoch, draining changes no tracker and no offset to commit |
| OffsetCommit.StaleAcknowledgementIsNoOp | data-prepper-plugins/kafka-plugins/src/main/java/org/opensearch/dataprepper/plugins/kafka/consumer/KafkaSourceCustomConsumer.java:216-238 | queueing an acknowledged map whose entries are all stale makes no difference to the result of the next drain |
| OffsetCommit.CommitOffsets | data-prepper-plugins/kafka-plugins/src/main/java/org/opensearch/dataprepper/plugins/kafka/consumer/KafkaSourceCustomConsumer.java:241-262 | with auto-commit on, nothing happens; otherwise the queue is drained first; inside the interval or with an empty map there is no commit and lastCommitTime is kept; otherwise exactly one batched commit of the whole map, after which the map is empty and lastCommitTime is now |
| OffsetCommit.CommitOffsetsIdempotent | data-prepper-plugins/kafka-plugins/src/main/java/org/opensearch/dataprepper/plugins/kafka/consumer/KafkaSourceCustomConsumer.java:245-260 | after a forced commit, another commit (forced or not, at any time) changes nothing |
| OffsetCommit.CommitClearsEvenWhenRejected | data-prepper-plugins/kafka-plugins/src/main/java/org/opensearch/dataprepper/plugins/kafka/consumer/KafkaSourceCustomConsumer.java:254-260 | a commitSync that throws is logged as one rejected commit, and the map is still emptied and the clock advanced |
| PartitionReset.SeekAll | data-prepper-plugins/kafka-plugins/src/main/java/org/opensearch/dataprepper/plugins/kafka/consumer/KafkaSourceCustomConsumer.java:196-209 | the reset loop appends only its seeks to the effect log and changes nothing but the trackers |
| PartitionReset.SeekAllTrackers | data-prepper-plugins/kafka-plugins/src/main/java/org/opensearch/dataprepper/plugins/kafka/consumer/KafkaSourceCustomConsumer.java:197-208 | exactly the trackers of partitions whose lookup and seek both succeeded are removed |
| PartitionReset.ResetSeeksSpec | data-prepper-plugins/kafka-plugins/src/main/java/org/opensearch/dataprepper/plugins/kafka/consumer/KafkaSourceCustomConsumer.java:196-204 | over distinct partitions no partition is sought twice; every seek goes to the partition's committed offset or 0; every partition whose lookup does not throw is sought |
| PartitionReset.ResetOffsets | data-prepper-plugins/kafka-plugins/src/main/java/org/opensearch/dataprepper/plugins/kafka/consumer/KafkaSourceCustomConsumer.java:194-211 | an empty pending set does nothing; otherwise each pending partition is sought at most once, to its committed offset (or 0), and is sought whenever its lookup does not throw; its tracker is removed when the seek goes through, and the pending set is left empty even after failures |
| Rebalance.OnPartitionsAssigned | data-prepper-plugins/kafka-plugins/src/main/java/org/opensearch/dataprepper/plugins/kafka/consumer/KafkaSourceCustomConsumer.java:404-420 | owned partitions keep their epoch, trackers only disappear, and every newly owned partition was in the call and carries the call's epoch |
| Rebalance.AssignPrefixSpec | data-prepper-plugins/kafka-plugins/src/main/java/org/opensearch/dataprepper/plugins/kafka/consumer/KafkaSourceCustomConsumer.java:407-418 | the assignment loop equals the set-based reference assignment of the prefix before the first unowned partition whose lookup throws, and reports completion exactly when there is none |
| Rebalance.AssignSpec | data-prepper-plugins/kafka-plugins/src/main/java/org/opensearch/dataprepper/plugins/kafka/consumer/KafkaSourceCustomConsumer.java:404-420 | a completed assignment leaves owned partitions' epochs alone, gives every new partition the call's single epoch and removes its index's tracker, keeps all other trackers and changes nothing else |
| Rebalance.AssignIdempotent | data-prepper-plugins/kafka-plugins/src/main/java/org/opensearch/dataprepper/plugins/kafka/consumer/KafkaSourceCustomConsumer.java:408-411 | repeating an assignment, with any epoch, changes nothing |
| Rebalance.OnPartitionsRevoked | data-prepper-plugins/kafka-plugins/src/main/java/org/opensearch/dataprepper/plugins/kafka/consumer/KafkaSourceCustomConsumer.java:423-436 | every revoked partition stops being owned and every other owned partition keeps its epoch; without auto-commit nothing is left queued or waiting to be committed (the full effect is in RevokeSpec) |
| Rebalance.RevokeAllSpec | data-prepper-plugins/kafka-plugins/src/main/java/org/opensearch/dataprepper/plugins/kafka/consumer/KafkaSourceCustomConsumer.java:426-434 | the revocation loop removes the revoked partitions from ownership and drops the trackers of the indices of the owned ones only |
| Rebalance.RevokeSpec | data-prepper-plugins/kafka-plugins/src/main/java/org/opensearch/dataprepper/plugins/kafka/consumer/KafkaSourceCustomConsumer.java:423-440 | ownership is unchanged by the forced commit; afterwards every revoked partition reads epoch 0, owned ones lose their index's tracker, other trackers are kept |
| Rebalance.RevokeUnowned | data-prepper-plugins/kafka-plugins/src/main/java/org/opensearch/dataprepper/plugins/kafka/consumer/KafkaSourceCustomConsumer.java:423-440 | revoking partitions none of which are owned changes nothing beyond the forced flush |
| Rebalance.RevokeFlushesFirst | data-prepper-plugins/kafka-plugins/src/main/java/org/opensearch/dataprepper/plugins/kafka/consumer/KafkaSourceCustomConsumer.java:423-425 | with offsets pending, the only call a revocation makes is one commit of all of them, including those of the revoked partitions, before ownership is dropped |
| Acknowledgement.OnAcknowledgement | data-prepper-plugins/kafka-plugins/src/main/java/org/opensearch/dataprepper/plugins/kafka/consumer/KafkaSourceCustomConsumer.java:137-151 | either outcome decrements the pending count; a positive one appends exactly its map to the queue; a negative one adds every partition of the map to the reset set and leaves the queue alone; trackers, ownership and offsets are untouched |
| Acknowledgement.Acknowledge | data-prepper-plugins/kafka-plugins/src/main/java/org/opensearch/dataprepper/plugins/kafka/consumer/KafkaSourceCustomConsumer.java:135-153 | the callback of one outstanding acknowledgement set fires once and that set is no longer outstanding |
| Polling.RangeOf | data-prepper-plugins/kafka-plugins/src/main/java/org/opensearch/dataprepper/plugins/kafka/consumer/KafkaSourceCustomConsumer.java:388-390 | a partition's range runs between its first and last polled record |
| Polling.RecordBatch | data-prepper-plugins/kafka-plugins/src/main/java/org/opensearch/dataprepper/plugins/kafka/consumer/KafkaSourceCustomConsumer.java:356-392 | every recorded range carries the partition's current epoch, never 0; no more entries than polled partitions |
| Polling.RecordBatchEntries | data-prepper-plugins/kafka-plugins/src/main/java/org/opensearch/dataprepper/plugins/kafka/consumer/KafkaSourceCustomConsumer.java:358-391 | each entry is the [first, last] range of one polled partition, and a polled partition gets an entry exactly when its epoch is not 0 |
| Polling.RecordBatchDistinct | data-prepper-plugins/kafka-plugins/src/main/java/org/opensearch/dataprepper/plugins/kafka/consumer/KafkaSourceCustomConsumer.java:358-391 | the offsets map has one entry per partition, and only polled partitions |
| Polling.ScheduleCommits | data-prepper-plugins/kafka-plugins/src/main/java/org/opensearch/dataprepper/plugins/kafka/consumer/KafkaSourceCustomConsumer.java:166-170 | each recorded partition is scheduled at its range's max + 1; no other partition's entry changes |
| Polling.ConsumeRecords | data-prepper-plugins/kafka-plugins/src/main/java/org/opensearch/dataprepper/plugins/kafka/consumer/KafkaSourceCustomConsumer.java:156-192 | an empty poll or an authentication failure changes nothing; with acknowledgements one set for the batch's map is made pending; without them every owned polled partition is scheduled at max + 1; a non-registry decode failure seeks past the bad offset; ownership and trackers are never touched |
| ConsumerMachine.CurrentImpliesOwned | data-prepper-plugins/kafka-plugins/src/main/java/org/opensearch/dataprepper/plugins/kafka/consumer/KafkaSourceCustomConsumer.java:438-440 | a range with a non-zero epoch matches only an owned partition |
| ConsumerMachine.CommitPreservesInv | data-prepper-plugins/kafka-plugins/src/main/java/org/opensearch/dataprepper/plugins/kafka/consumer/KafkaSourceCustomConsumer.java:219-228 | trackers created while draining belong to owned partitions' indices, because recorded epochs are never 0 |
| ConsumerMachine.RevokePreservesInv | data-prepper-plugins/kafka-plugins/src/main/java/org/opensearch/dataprepper/plugins/kafka/consumer/KafkaSourceCustomConsumer.java:423-436 | after a revocation every remaining tracker still belongs to an owned partition's index |
| ConsumerMachine.AssignPreservesInv | data-prepper-plugins/kafka-plugins/src/main/java/org/opensearch/dataprepper/plugins/kafka/consumer/KafkaSourceCustomConsumer.java:404-420 | assignment keeps the invariant |
| ConsumerMachine.AckPreservesInv | data-prepper-plugins/kafka-plugins/src/main/java/org/opensearch/dataprepper/plugins/kafka/consumer/KafkaSourceCustomConsumer.java:137-151 | an acknowledgement keeps recorded epochs non-zero and the pending count equal to the number of outstanding sets |
| ConsumerMachine.ResetPreservesInv | data-prepper-plugins/kafka-plugins/src/main/java/org/opensearch/dataprepper/plugins/kafka/consumer/KafkaSourceCustomConsumer.java:194-211 | a reset keeps the invariant |
| ConsumerMachine.ConsumePreservesInv | data-prepper-plugins/kafka-plugins/src/main/java/org/opensearch/dataprepper/plugins/kafka/consumer/KafkaSourceCustomConsumer.java:359-363 | a poll only records non-zero epochs, so the invariant is kept |
| ConsumerMachine.NextPreservesInv | data-prepper-plugins/kafka-plugins/src/main/java/org/opensearch/dataprepper/plugins/kafka/consumer/KafkaSourceCustomConsumer.java:123-436 | every step of the machine keeps the invariant: recorded epochs non-zero, tracker keys within owned indices, pending count matching outstanding sets |
| ConsumerMachine.RebalanceIsolatesAcknowledgement | data-prepper-plugins/kafka-plugins/src/main/java/org/opensearch/dataprepper/plugins/kafka/consumer/KafkaSourceCustomConsumer.java:216-219 | ranges polled before their partitions were revoked and reassigned under a different epoch are stale, and acknowledging them positively changes nothing the next drain does |
| ConsumerMachine.NegativeAcknowledgementResets | data-prepper-plugins/kafka-plugins/src/main/java/org/opensearch/dataprepper/plugins/kafka/consumer/KafkaSourceCustomConsumer.java:144-150 | after a negative acknowledgement and the next reset, each partition of the set was sought to its committed offset (or 0), lost its tracker when the seek went through, and nothing stays pending |

## Left out

- The `run()` loop: subscribing, seeding epochs at start-up, the shutdown flag, the retry
  flag, `wakeup`/`close` and every `Thread.sleep` backoff. These are threading and timing
  concerns. The loop's locked block (a non-forced commit, then a reset) and the final
  forced commit are two machine steps in a row. The machine runs them in any order.
- Buffer back-pressure: records and the downstream buffer are not represented. Nothing
  is proved about the overflow retry never dropping a record. An exception other than
  overflow thrown mid-batch by the buffer leaves an acknowledgement set that is never
  completed; this is not modelled either.
- `getRecord`: payload decoding (Jackson, Avro, schema-registry payloads) and the
  event/metadata builders are foreign library calls.
- `TopicPartitionCommitTracker`: its internals are not part of this model. Its answers
  are an environment function of its history. The same goes for an exception thrown by
  `addCompletedOffsets`.
- Properties that depend on the tracker's internals are not stated: the safe commit point
  never decreasing, out-of-order ranges merging, and duplicate ranges being ignored.
- The pending acknowledgement counter (`numberOfAcksPending`) is an `AtomicInteger`
  changed outside every lock: decremented at the start of the callback (line 138) and
  incremented after `acknowledgementSet.complete()` (lines 172-173). A callback can
  therefore decrement it before the poll increments it, and it can be observed negative.
  The model's `Consume` step does the increment and the registration of the set as one
  atomic step. `ConsumerMachine.Inv`'s `acksPending == |outstanding|` therefore holds
  at the model's step boundaries only, not at every instant of the source.
- Metrics counters and logging.
- `OffsetAndMetadata` metadata: only the offset is kept.
- 64-bit arithmetic: offsets, epochs and times are unbounded. `max + 1` at `Long.MAX_VALUE`,
  the wrap-around of `currentTimeMillis - lastCommitTime`, and the `AtomicInteger`
  pending count wrapping are not modelled.
- Epoch freshness: epochs are parameters. `ConsumerMachine.RebalanceIsolatesAcknowledgement`
  assumes that the new epoch differs from the recorded one. The source takes this from
  the nanosecond clock.
- The unused constant `COMMIT_OFFSET_INTERVAL_MS`. The commit interval comes from the
  topic configuration, which is a parameter here.
- KafkaSourceConfig, DateProcessor and PostgreSQLConfig: configuration getters, a wrapper
  over `java.time`, and a constant connector-configuration table. None of them has
  consumer logic.
- OffsetCommit.ApplyAllOffsets: says only where offsetsToCommit may change, not the
  values at current partitions. Those values are the abstract tracker's answers.
  `OffsetCommit.ApplyEntry` states the value for one entry, and
  `OffsetCommit.ApplyAllReleases` says that each changed value is an answer that index's
  tracker gave after a range fed in the same run. It does not say that this is the
  tracker's last answer of the run.
- ConsumerState.Environment: the broker's answers are fixed functions for the length of
  one step. Each step takes its own environment, so answers may differ between steps.
  The source asks `committed(partition)` again for every entry whose tracker is still
  missing (lines 222-223). A lookup that throws for one entry and succeeds for a later
  entry of the same partition in the same drain is therefore not modelled. In the
  source that later entry creates the tracker; in the model the lookup throws for both.
- OffsetCommit.ApplyAllCreatesExactly and OffsetCommit.ProcessAcknowledgedOffsetsSpec:
  "the first creating entry" depends on this fixed answer. They do not cover a lookup
  that fails transiently within one drain.

=== FILE: acknowledgement.dfy ===
/**
 The callback of an acknowledgement set: a positive outcome queues the set's offsets
 for the consumer thread, a negative one schedules its partitions for a reset.
 */
module Acknowledgement {
  import opened ConsumerState

  /** The callback body run when the acknowledgement set for `offsets` completes. */
  function OnAcknowledgement(st: State, offsets: Offsets, positive: bool): (r: State)
    // either outcome settles one pending acknowledgement set
    ensures r.acksPending == st.acksPending - 1
    // positive: exactly this map is queued; nothing is scheduled for reset
    ensures positive ==> r.acknowledged == st.acknowledged + [offsets] && r.toReset == st.toReset
    // negative: every partition of the map is scheduled for reset; the queue is untouched
    ensures !positive ==> r.toReset == st.toReset + Partitions(offsets) && r.acknowledged == st.acknowledged
    // neither outcome touches ownership, trackers or offsets to commit
    ensures r == st.(acksPending := r.acksPending, acknowledged := r.acknowledged, toReset := r.toReset)
  {
    var s := st.(acksPending := st.acksPending - 1);
    if positive then s.(acknowledged := s.acknowledged + [offsets])
    else s.(toReset := s.toReset + Partitions(offsets))
  }

  /** The acknowledgement manager fires the callback of the `i`-th outstanding set, exactly once. */
  function Acknowledge(st: State, i: nat, positive: bool): (r: State)
    requires i < |st.outstanding|
    ensures r.outstanding == st.outstanding[..i] + st.outstanding[i + 1..]
    ensures |r.outstanding| == |st.outstanding| - 1
    ensures r == OnAcknowledgement(st, st.outstanding[i], positive).(outstanding := r.outstanding)
  {
    OnAcknowledgement(st.(outstanding := st.outstanding[..i] + st.outstanding[i + 1..]), st.outstanding[i], positive)
  }
}

=== FILE: commit.dfy ===
/**
 The commit path: applying acknowledged ranges to the per-partition commit trackers
 (`processAcknowledgedOffsets`), recording the offsets the trackers release
 (`updateOffsetsToCommit`), and flushing them in one batched commit (`commitOffsets`).
 */
module OffsetCommit {
  import opened Wrappers
  import opened ConsumerState

  /** Records the next offset to commit for `p`; a null answer from a tracker records nothing. */
  function UpdateOffsetsToCommit(m: map<TopicPartition, Offset>, p: TopicPartition, next: Option<Offset>): (r: map<TopicPartition, Offset>)
    ensures next.None? ==> r == m
    ensures next.Some? ==> r.Keys == m.Keys + {p} && r[p] == next.value
    ensures forall q :: q in m && q != p ==> q in r && r[q] == m[q]
  {
    if next.None? then m else m[p := next.value]
  }

  /** An entry is current when its partition still reads the epoch the entry was polled under. */
  predicate Current(owned: map<TopicPartition, Epoch>, e: Entry)
  {
    PartitionEpoch(owned, e.partition) == e.range.epoch
  }

  /** The tracker after one more completed range has been added to it. */
  function Feed(t: CommitTracker, range: OffsetRange): CommitTracker
  {
    t.(completed := t.completed + [range])
  }

  /** The handling of one acknowledged `(partition, range)` pair. */
  function ApplyEntry(st: State, env: Environment, e: Entry): (r: State)
    ensures r == st.(trackers := r.trackers, offsetsToCommit := r.offsetsToCommit)
    // a range from a superseded ownership session changes nothing
    ensures !Current(st.owned, e) ==> r == st
    // an existing tracker is fed the range
    ensures Current(st.owned, e) && e.partition.index in st.trackers ==>
      r.trackers == st.trackers[e.partition.index := Feed(st.trackers[e.partition.index], e.range.offsets)]
    // a missing tracker is created, seeded with the committed offset, then fed the range
    ensures Current(st.owned, e) && e.partition.index !in st.trackers && !env.committed(e.partition).LookupFails? ==>
      r.trackers == st.trackers[e.partition.index := CommitTracker(e.partition, Seed(env.committed(e.partition)), [e.range.offsets])]
    // a failing committed-offset lookup is caught and the range is dropped
    ensures Current(st.owned, e) && e.partition.index !in st.trackers && env.committed(e.partition).LookupFails? ==> r == st
    // whatever the fed tracker releases is what gets scheduled for the partition
    ensures e.partition.index in r.trackers && r.trackers != st.trackers ==>
      r.offsetsToCommit == UpdateOffsetsToCommit(st.offsetsToCommit, e.partition, env.addCompleted(r.trackers[e.partition.index]))
  {
    var p := e.partition;
    var idx := p.index;
    if !Current(st.owned, e) then st
    else if idx !in st.trackers && env.committed(p).LookupFails? then st
    else
      var t := if idx in st.trackers then st.trackers[idx] else CommitTracker(p, Seed(env.committed(p)), []);
      var fed := Feed(t, e.range.offsets);
      assert fed != t by { assert |fed.completed| == |t.completed| + 1; }
      assert idx !in st.trackers ==> fed.completed == [e.range.offsets];
      st.(trackers := st.trackers[idx := fed],
          offsetsToCommit := UpdateOffsetsToCommit(st.offsetsToCommit, p, env.addCompleted(fed)))
  }

  /** The entries handled in order, as the nested `forEach` loops do. */
  function ApplyAll(st: State, env: Environment, es: seq<Entry>): (r: State)
    // only trackers and offsetsToCommit change, and neither loses a key
    ensures r == st.(trackers := r.trackers, offsetsToCommit := r.offsetsToCommit)
    ensures st.trackers.Keys <= r.trackers.Keys
    ensures st.offsetsToCommit.Keys <= r.offsetsToCommit.Keys
    decreases |es|
  {
    if |es| == 0 then st else ApplyAll(ApplyEntry(st, env, es[0]), env, es[1..])
  }

  /** The acknowledged maps, one after the other. */
  function Flatten(q: seq<Offsets>): seq<Entry>
    decreases |q|
  {
    if |q| == 0 then [] else q[0] + Flatten(q[1..])
  }

  /** The ranges that current entries of `es` feed to the tracker with index `idx`, in order. */
  function RangesFor(owned: map<TopicPartition, Epoch>, es: seq<Entry>, idx: int): seq<OffsetRange>
    decreases |es|
  {
    if |es| == 0 then []
    else (if Current(owned, es[0]) && es[0].partition.index == idx then [es[0].range.offsets] else [])
         + RangesFor(owned, es[1..], idx)
  }

  /** The partitions of the current entries of `es`. */
  function MatchedPartitions(owned: map<TopicPartition, Epoch>, es: seq<Entry>): set<TopicPartition>
  {
    set e | e in es && Current(owned, e) :: e.partition
  }

  /** Whether `e` creates the tracker for `idx` when none exists: current, that index, and a lookup that does not throw. */
  predicate Creates(owned: map<TopicPartition, Epoch>, env: Environment, e: Entry, idx: int)
  {
    Current(owned, e) && e.partition.index == idx && !env.committed(e.partition).LookupFails?
  }

  /** The position of the first entry of `es` that creates the tracker for `idx`, if any. */
  function FirstCreator(owned: map<TopicPartition, Epoch>, env: Environment, es: seq<Entry>, idx: int): (r: Option<nat>)
    ensures r.Some? ==> r.value < |es| && Creates(owned, env, es[r.value], idx)
    ensures r.Some? ==> forall j :: 0 <= j < r.value ==> !Creates(owned, env, es[j], idx)
    ensures r.None? ==> forall j :: 0 <= j < |es| ==> !Creates(owned, env, es[j], idx)
    decreases |es|
  {
    if |es| == 0 then None
    else if Creates(owned, env, es[0], idx) then Some(0)
    else match FirstCreator(owned, env, es[1..], idx)
      case None => None
      case Some(k) => Some(k + 1)
  }

  /** Drains the acknowledged queue into the trackers; stale entries are skipped. */
  function ProcessAcknowledgedOffsets(st: State, env: Environment): (r: State)
    ensures r.acknowledged == []
    ensures r == st.(acknowledged := [], trackers := r.trackers, offsetsToCommit := r.offsetsToCommit)
  {
    ApplyAll(st, env, Flatten(st.acknowledged)).(acknowledged := [])
  }

  /** Whether a (non-forced) commit is still inside the commit interval. */
  predicate TooEarly(st: State, cfg: Config, force: bool, now: int)
  {
    !force && now - st.lastCommitTime < cfg.commitInterval
  }

  /** The periodic or forced flush of `offsetsToCommit`. */
  function CommitOffsets(st: State, env: Environment, cfg: Config, force: bool, now: int): (r: State)
    // with auto-commit on, nothing at all happens
    ensures cfg.autoCommit ==> r == st
    // otherwise the acknowledged queue is always drained first
    ensures !cfg.autoCommit ==>
      var p := ProcessAcknowledgedOffsets(st, env);
      && r.acknowledged == []
      && r.trackers == p.trackers
      && r == p.(effects := r.effects, offsetsToCommit := r.offsetsToCommit, lastCommitTime := r.lastCommitTime)
    // inside the interval, or with nothing to commit: no commit call and the clock is kept
    ensures !cfg.autoCommit && (TooEarly(st, cfg, force, now) || |ProcessAcknowledgedOffsets(st, env).offsetsToCommit| == 0) ==>
      r == ProcessAcknowledgedOffsets(st, env)
    // otherwise exactly one commit call with the whole map; the map is emptied even if the call fails
    ensures !cfg.autoCommit && !TooEarly(st, cfg, force, now) && |ProcessAcknowledgedOffsets(st, env).offsetsToCommit| != 0 ==>
      && |r.effects| == |st.effects| + 1
      && r.effects[..|st.effects|] == st.effects
      && r.effects[|st.effects|] == CommitSync(ProcessAcknowledgedOffsets(st, env).offsetsToCommit,
                                              env.commitAccepted(ProcessAcknowledgedOffsets(st, env).offsetsToCommit))
      && r.offsetsToCommit == map[]
      && r.lastCommitTime == now
  {
    if cfg.autoCommit then st
    else
      var s := ProcessAcknowledgedOffsets(st, env);
      if TooEarly(s, cfg, force, now) then s
      else if |s.offsetsToCommit| == 0 then s
      else
        var m := s.offsetsToCommit;
        s.(effects := s.effects + [CommitSync(m, env.commitAccepted(m))],
           offsetsToCommit := map[],
           lastCommitTime := now)
  }

  // ---------------------------------------------------------------------------
  // Lemmas about applying acknowledged entries

  /** Epoch isolation: entries that are all stale leave the whole state untouched. */
  lemma {:induction false} ApplyAllStale(st: State, env: Environment, es: seq<Entry>)
    requires forall e :: e in es ==> !Current(st.owned, e)
    ensures ApplyAll(st, env, es) == st
    decreases |es|
  {
    if |es| > 0 {
      assert es[0] in es;
      ApplyAllStale(st, env, es[1..]);
    }
  }

  /** An existing tracker is fed exactly the ranges of the current entries for its index, in order. */
  lemma {:induction false} ApplyAllFeedsExisting(st: State, env: Environment, es: seq<Entry>, idx: int)
    requires idx in st.trackers
    ensures var r := ApplyAll(st, env, es);
      && idx in r.trackers
      && r.trackers[idx] == st.trackers[idx].(completed := st.trackers[idx].completed + RangesFor(st.owned, es, idx))
    decreases |es|
  {
    if |es| == 0 {
      assert st.trackers[idx].completed + [] == st.trackers[idx].completed;
    } else {
      var s1 := ApplyEntry(st, env, es[0]);
      ApplyAllFeedsExisting(s1, env, es[1..], idx);
      var t := st.trackers[idx];
      var head := if Current(st.owned, es[0]) && es[0].partition.index == idx then [es[0].range.offsets] else [];
      assert s1.trackers[idx] == t.(completed := t.completed + head);
      assert t.completed + head + RangesFor(st.owned, es[1..], idx) == t.completed + RangesFor(st.owned, es, idx);
    }
  }

  /** A tracker that did not exist was created for a current entry, seeded from its committed offset. */
  lemma {:induction false} ApplyAllCreates(st: State, env: Environment, es: seq<Entry>, idx: int)
    requires idx !in st.trackers
    requires idx in ApplyAll(st, env, es).trackers
    ensures var t := ApplyAll(st, env, es).trackers[idx];
      && t.partition in MatchedPartitions(st.owned, es)
      && t.partition.index == idx
      && !env.committed(t.partition).LookupFails?
      && t.seed == Seed(env.committed(t.partition))
    decreases |es|
  {
    var s1 := ApplyEntry(st, env, es[0]);
    if idx in s1.trackers {
      ApplyAllFeedsExisting(s1, env, es[1..], idx);
      assert es[0] in es;
    } else {
      ApplyAllCreates(s1, env, es[1..], idx);
      var t := ApplyAll(st, env, es).trackers[idx];
      var e :| e in es[1..] && Current(s1.owned, e) && e.partition == t.partition;
      assert e in es;
    }
  }

  /**
   A missing tracker exists afterwards exactly when some entry creates it; it is then the
   first such entry's partition, seeded from its committed offset, and fed that entry's
   range followed by the current ranges for its index after it.
   */
  lemma {:induction false} ApplyAllCreatesExactly(st: State, env: Environment, es: seq<Entry>, idx: int)
    requires idx !in st.trackers
    ensures var r := ApplyAll(st, env, es);
      var k := FirstCreator(st.owned, env, es, idx);
      && (idx in r.trackers <==> k.Some?)
      && (k.Some? ==>
            r.trackers[idx] == CommitTracker(es[k.value].partition, Seed(env.committed(es[k.value].partition)),
                                             [es[k.value].range.offsets] + RangesFor(st.owned, es[k.value + 1..], idx)))
    decreases |es|
  {
    if |es| > 0 {
      var s1 := ApplyEntry(st, env, es[0]);
      assert s1.owned == st.owned;
      if Creates(st.owned, env, es[0], idx) {
        ApplyAllFeedsExisting(s1, env, es[1..], idx);
      } else {
        assert idx !in s1.trackers;
        ApplyAllCreatesExactly(s1, env, es[1..], idx);
        var k := FirstCreator(st.owned, env, es[1..], idx);
        if k.Some? {
          assert es[1..][k.value] == es[k.value + 1];
          assert es[1..][k.value + 1..] == es[k.value + 2..];
        }
      }
    }
  }

  /** `offsetsToCommit` only changes at partitions of current entries, and never loses a key. */
  lemma {:induction false} ApplyAllOffsets(st: State, env: Environment, es: seq<Entry>)
    ensures var r := ApplyAll(st, env, es);
      && st.offsetsToCommit.Keys <= r.offsetsToCommit.Keys
      && forall q :: q !in MatchedPartitions(st.owned, es) ==>
           (q in r.offsetsToCommit <==> q in st.offsetsToCommit) &&
           (q in st.offsetsToCommit ==> r.offsetsToCommit[q] == st.offsetsToCommit[q])
    decreases |es|
  {
    if |es| > 0 {
      var s1 := ApplyEntry(st, env, es[0]);
      ApplyAllOffsets(s1, env, es[1..]);
      assert es[0] in es;
      MatchedTail(st.owned, es);
    }
  }

  /** How many ranges the tracker for `idx` has been fed; 0 when there is none. */
  function FedCount(trackers: map<int, CommitTracker>, idx: int): nat
  {
    if idx in trackers then |trackers[idx].completed| else 0
  }

  /**
   Whether `v` is what `t` answered after a range fed past the first `from`: after some
   prefix of its ranges longer than `from`.
   */
  predicate ReleasedSince(env: Environment, t: CommitTracker, from: nat, v: Offset)
  {
    exists n :: from < n <= |t.completed| && env.addCompleted(t.(completed := t.completed[..n])) == Some(v)
  }

  /**
   One entry changes `offsetsToCommit` only at its partition, to what the tracker answered
   once that entry's range was fed; no tracker loses a range.
   */
  lemma ApplyEntryReleases(st: State, env: Environment, e: Entry)
    ensures var r := ApplyEntry(st, env, e);
      && (forall q :: q in r.offsetsToCommit ==>
            || (q in st.offsetsToCommit && r.offsetsToCommit[q] == st.offsetsToCommit[q])
            || (&& q == e.partition && q.index in r.trackers
                && |r.trackers[q.index].completed| == FedCount(st.trackers, q.index) + 1
                && env.addCompleted(r.trackers[q.index]) == Some(r.offsetsToCommit[q])))
      && (forall idx :: FedCount(st.trackers, idx) <= FedCount(r.trackers, idx))
  {
  }

  /**
   Only what a tracker releases during the run is scheduled: every value of
   `offsetsToCommit` that the entries change is an answer the tracker for that partition's
   index gave after one of the ranges fed in this run, never an answer from before it.
   */
  lemma {:induction false} ApplyAllReleases(st: State, env: Environment, es: seq<Entry>)
    ensures var r := ApplyAll(st, env, es);
      forall q :: q in r.offsetsToCommit && !(q in st.offsetsToCommit && r.offsetsToCommit[q] == st.offsetsToCommit[q]) ==>
        q.index in r.trackers && ReleasedSince(env, r.trackers[q.index], FedCount(st.trackers, q.index), r.offsetsToCommit[q])
    decreases |es|
  {
    if |es| > 0 {
      var s1 := ApplyEntry(st, env, es[0]);
      var r := ApplyAll(st, env, es);
      ApplyEntryReleases(st, env, es[0]);
      ApplyAllReleases(s1, env, es[1..]);
      forall q | q in r.offsetsToCommit && !(q in st.offsetsToCommit && r.offsetsToCommit[q] == st.offsetsToCommit[q])
        ensures q.index in r.trackers && ReleasedSince(env, r.trackers[q.index], FedCount(st.trackers, q.index), r.offsetsToCommit[q])
      {
        if q in s1.offsetsToCommit && r.offsetsToCommit[q] == s1.offsetsToCommit[q] {
          ReleasedSurvives(s1, env, es[1..], q.index, FedCount(st.trackers, q.index), s1.offsetsToCommit[q]);
        } else {
          ReleasedSinceWeaken(env, r.trackers[q.index], FedCount(st.trackers, q.index), FedCount(s1.trackers, q.index), r.offsetsToCommit[q]);
        }
      }
    }
  }

  lemma ReleasedSinceWeaken(env: Environment, t: CommitTracker, from: nat, from': nat, v: Offset)
    requires from <= from' && ReleasedSince(env, t, from', v)
    ensures ReleasedSince(env, t, from, v)
  {
  }

  /** A tracker's current answer stays among its answers since `from` while later entries feed it. */
  lemma ReleasedSurvives(st: State, env: Environment, es: seq<Entry>, idx: int, from: nat, v: Offset)
    requires idx in st.trackers && from < |st.trackers[idx].completed|
    requires env.addCompleted(st.trackers[idx]) == Some(v)
    ensures idx in ApplyAll(st, env, es).trackers && ReleasedSince(env, ApplyAll(st, env, es).trackers[idx], from, v)
  {
    ApplyAllFeedsExisting(st, env, es, idx);
    var t := st.trackers[idx];
    var t' := ApplyAll(st, env, es).trackers[idx];
    var n := |t.completed|;
    assert t'.completed[..n] == t.completed;
    assert t'.(completed := t'.completed[..n]) == t;
  }

  lemma MatchedTail(owned: map<TopicPartition, Epoch>, es: seq<Entry>)
    requires |es| > 0
    ensures MatchedPartitions(owned, es[1..]) <= MatchedPartitions(owned, es)
  {
    forall q | q in MatchedPartitions(owned, es[1..])
      ensures q in MatchedPartitions(owned, es)
    {
      var e :| e in es[1..] && Current(owned, e) && e.partition == q;
      assert e in es;
    }
  }

  lemma {:induction false} ApplyAllAppend(st: State, env: Environment, es1: seq<Entry>, es2: seq<Entry>)
    ensures ApplyAll(st, env, es1 + es2) == ApplyAll(ApplyAll(st, env, es1), env, es2)
    decreases |es1|
  {
    if |es1| > 0 {
      assert (es1 + es2)[1..] == es1[1..] + es2;
      ApplyAllAppend(ApplyEntry(st, env, es1[0]), env, es1[1..], es2);
    } else {
      assert es1 + es2 == es2;
    }
  }

  lemma {:induction false} FlattenMember(q: seq<Offsets>, e: Entry)
    ensures e in Flatten(q) <==> exists o :: o in q && e in o
    decreases |q|
  {
    if |q| > 0 {
      FlattenMember(q[1..], e);
      assert forall o :: o in q <==> o == q[0] || o in q[1..];
    }
  }

  lemma {:induction false} FlattenAppend(q: seq<Offsets>, o: Offsets)
    ensures Flatten(q + [o]) == Flatten(q) + o
    decreases |q|
  {
    if |q| == 0 {
      assert q + [o] == [o];
      assert Flatten([o]) == o + Flatten([]);
    } else {
      assert (q + [o])[1..] == q[1..] + [o];
      FlattenAppend(q[1..], o);
    }
  }

  // ---------------------------------------------------------------------------
  // Properties of processAcknowledgedOffsets and commitOffsets

  /**
   Draining the queue: existing trackers are fed exactly the current ranges for their
   index; a missing tracker is created exactly when a current entry for its index has a
   working lookup, seeded from the committed offset of the first such entry and fed the
   ranges from that entry on; `offsetsToCommit` changes only at partitions of current
   entries, and every value it changes to is one the tracker for that index released
   after a range fed in this drain.
   */
  lemma ProcessAcknowledgedOffsetsSpec(st: State, env: Environment)
    ensures var r := ProcessAcknowledgedOffsets(st, env);
      var es := Flatten(st.acknowledged);
      && (forall idx :: idx in st.trackers ==>
            idx in r.trackers &&
            r.trackers[idx] == st.trackers[idx].(completed := st.trackers[idx].completed + RangesFor(st.owned, es, idx)))
      && (forall idx :: idx in r.trackers && idx !in st.trackers ==>
            && r.trackers[idx].partition.index == idx
            && (exists o :: o in st.acknowledged && r.trackers[idx].partition in MatchedPartitions(st.owned, o))
            && !env.committed(r.trackers[idx].partition).LookupFails?
            && r.trackers[idx].seed == Seed(env.committed(r.trackers[idx].partition)))
      && (forall idx :: idx !in st.trackers ==>
            var k := FirstCreator(st.owned, env, es, idx);
            && (idx in r.trackers <==> k.Some?)
            && (k.Some? ==>
                  r.trackers[idx] == CommitTracker(es[k.value].partition, Seed(env.committed(es[k.value].partition)),
                                                   [es[k.value].range.offsets] + RangesFor(st.owned, es[k.value + 1..], idx))))
      && st.offsetsToCommit.Keys <= r.offsetsToCommit.Keys
      && (forall q :: q in r.offsetsToCommit && !(q in st.offsetsToCommit && r.offsetsToCommit[q] == st.offsetsToCommit[q]) ==>
            q.index in r.trackers && ReleasedSince(env, r.trackers[q.index], FedCount(st.trackers, q.index), r.offsetsToCommit[q]))
      && (forall q :: q !in MatchedPartitions(st.owned, es) ==>
            (q in r.offsetsToCommit <==> q in st.offsetsToCommit) &&
            (q in st.offsetsToCommit ==> r.offsetsToCommit[q] == st.offsetsToCommit[q]))
  {
    DrainFeedsExisting(st, env);
    DrainCreatesFromQueue(st, env);
    DrainCreatesExactly(st, env);
    DrainOffsets(st, env);
  }

  lemma DrainOffsets(st: State, env: Environment)
    ensures var r := ProcessAcknowledgedOffsets(st, env);
      var es := Flatten(st.acknowledged);
      && (forall q :: q in r.offsetsToCommit && !(q in st.offsetsToCommit && r.offsetsToCommit[q] == st.offsetsToCommit[q]) ==>
            q.index in r.trackers && ReleasedSince(env, r.trackers[q.index], FedCount(st.trackers, q.index), r.offsetsToCommit[q]))
      && (forall q :: q !in MatchedPartitions(st.owned, es) ==>
            (q in r.offsetsToCommit <==> q in st.offsetsToCommit) &&
            (q in st.offsetsToCommit ==> r.offsetsToCommit[q] == st.offsetsToCommit[q]))
  {
    ApplyAllReleases(st, env, Flatten(st.acknowledged));
    ApplyAllOffsets(st, env, Flatten(st.acknowledged));
  }

  lemma DrainFeedsExisting(st: State, env: Environment)
    ensures var r := ProcessAcknowledgedOffsets(st, env);
      forall idx :: idx in st.trackers ==>
        idx in r.trackers &&
        r.trackers[idx] == st.trackers[idx].(completed := st.trackers[idx].completed + RangesFor(st.owned, Flatten(st.acknowledged), idx))
  {
    forall idx | idx in st.trackers
      ensures var r := ApplyAll(st, env, Flatten(st.acknowledged));
        idx in r.trackers &&
        r.trackers[idx] == st.trackers[idx].(completed := st.trackers[idx].completed + RangesFor(st.owned, Flatten(st.acknowledged), idx))
    {
      ApplyAllFeedsExisting(st, env, Flatten(st.acknowledged), idx);
    }
  }

  lemma DrainCreatesFromQueue(st: State, env: Environment)
    ensures var r := ProcessAcknowledgedOffsets(st, env);
      forall idx :: idx in r.trackers && idx !in st.trackers ==>
        && r.trackers[idx].partition.index == idx
        && (exists o :: o in st.acknowledged && r.trackers[idx].partition in MatchedPartitions(st.owned, o))
        && !env.committed(r.trackers[idx].partition).LookupFails?
        && r.trackers[idx].seed == Seed(env.committed(r.trackers[idx].partition))
  {
    var es := Flatten(st.acknowledged);
    var r := ProcessAcknowledgedOffsets(st, env);
    forall idx | idx in r.trackers && idx !in st.trackers
      ensures r.trackers[idx].partition.index == idx
      ensures exists o :: o in st.acknowledged && r.trackers[idx].partition in MatchedPartitions(st.owned, o)
      ensures !env.committed(r.trackers[idx].partition).LookupFails?
      ensures r.trackers[idx].seed == Seed(env.committed(r.trackers[idx].partition))
    {
      ApplyAllCreates(st, env, es, idx);
      var t := r.trackers[idx];
      var e :| e in es && Current(st.owned, e) && e.partition == t.partition;
      FlattenMember(st.acknowledged, e);
      var o :| o in st.acknowledged && e in o;
      assert t.partition in MatchedPartitions(st.owned, o);
    }
  }

  lemma DrainCreatesExactly(st: State, env: Environment)
    ensures var r := ProcessAcknowledgedOffsets(st, env);
      var es := Flatten(st.acknowledged);
      forall idx :: idx !in st.trackers ==>
        var k := FirstCreator(st.owned, env, es, idx);
        && (idx in r.trackers <==> k.Some?)
        && (k.Some? ==>
              r.trackers[idx] == CommitTracker(es[k.value].partition, Seed(env.committed(es[k.value].partition)),
                                               [es[k.value].range.offsets] + RangesFor(st.owned, es[k.value + 1..], idx)))
  {
    var es := Flatten(st.acknowledged);
    forall idx | idx !in st.trackers
      ensures var r := ApplyAll(st, env, es);
        var k := FirstCreator(st.owned, env, es, idx);
        && (idx in r.trackers <==> k.Some?)
        && (k.Some? ==>
              r.trackers[idx] == CommitTracker(es[k.value].partition, Seed(env.committed(es[k.value].partition)),
                                               [es[k.value].range.offsets] + RangesFor(st.owned, es[k.value + 1..], idx)))
    {
      ApplyAllCreatesExactly(st, env, es, idx);
    }
  }

  /** Epoch isolation: when every queued entry is stale, draining the queue changes no tracker and no offset. */
  lemma ProcessAcknowledgedOffsetsStale(st: State, env: Environment)
    requires forall o, e :: o in st.acknowledged && e in o ==> !Current(st.owned, e)
    ensures ProcessAcknowledgedOffsets(st, env) == st.(acknowledged := [])
  {
    forall e | e in Flatten(st.acknowledged)
      ensures !Current(st.owned, e)
    {
      FlattenMember(st.acknowledged, e);
    }
    ApplyAllStale(st, env, Flatten(st.acknowledged));
  }

  /**
   A stale acknowledgement commutes with everything: queueing a map whose entries are
   all stale makes no difference to what draining the queue does to trackers and offsets.
   */
  lemma StaleAcknowledgementIsNoOp(st: State, env: Environment, o: Offsets)
    requires forall e :: e in o ==> !Current(st.owned, e)
    ensures ProcessAcknowledgedOffsets(st.(acknowledged := st.acknowledged + [o]), env)
         == ProcessAcknowledgedOffsets(st, env)
  {
    var s' := st.(acknowledged := st.acknowledged + [o]);
    FlattenAppend(st.acknowledged, o);
    ApplyAllAppend(s', env, Flatten(st.acknowledged), o);
    var mid := ApplyAll(s', env, Flatten(st.acknowledged));
    ApplyAllStale(mid, env, o);
    ApplyAllSameOnQueue(st, s', env, Flatten(st.acknowledged));
  }

  /** Applying entries does not read the acknowledged queue. */
  lemma {:induction false} ApplyAllSameOnQueue(st: State, st': State, env: Environment, es: seq<Entry>)
    requires st' == st.(acknowledged := st'.acknowledged)
    ensures ApplyAll(st', env, es) == ApplyAll(st, env, es).(acknowledged := st'.acknowledged)
    decreases |es|
  {
    if |es| > 0 {
      ApplyAllSameOnQueue(ApplyEntry(st, env, es[0]), ApplyEntry(st', env, es[0]), env, es[1..]);
    }
  }

  /** A forced commit leaves nothing behind: doing it again, at any time, changes nothing. */
  lemma CommitOffsetsIdempotent(st: State, env: Environment, env': Environment, cfg: Config, force: bool, now: int, later: int)
    ensures var r := CommitOffsets(st, env, cfg, true, now);
      CommitOffsets(r, env', cfg, force, later) == r
  {
  }

  /** A failing commit call is not retried from the map: the map is emptied either way. */
  lemma CommitClearsEvenWhenRejected(st: State, env: Environment, cfg: Config, now: int)
    requires !cfg.autoCommit
    requires |ProcessAcknowledgedOffsets(st, env).offsetsToCommit| != 0
    requires !env.commitAccepted(ProcessAcknowledgedOffsets(st, env).offsetsToCommit)
    ensures var r := CommitOffsets(st, env, cfg, true, now);
      && r.effects == st.effects + [CommitSync(ProcessAcknowledgedOffsets(st, env).offsetsToCommit, false)]
      && r.offsetsToCommit == map[]
      && r.lastCommitTime == now
  {
  }
}

=== FILE: machine.dfy ===
/**
 The consumer as one state machine: each step below is one critical section of the
 source, taken as atomic, and a run is a sequence of steps in some order. The pending
 acknowledgement counter is the one field the source changes outside any lock; here its
 increment is part of the `Consume` step and its decrement part of the `Ack` step.
 */
module ConsumerMachine {
  import opened ConsumerState
  import opened OffsetCommit
  import opened PartitionReset
  import opened Rebalance
  import opened Acknowledgement
  import opened Polling

  datatype Step =
    | Assign(partitions: seq<TopicPartition>, epoch: Epoch)
    | Revoke(partitions: seq<TopicPartition>, now: int)
    | Ack(index: nat, positive: bool)
    | Commit(force: bool, now: int)
    | Reset(order: seq<TopicPartition>)
    | Consume(poll: PollResult)

  /** What the environment guarantees when it takes a step. */
  predicate Enabled(st: State, step: Step)
  {
    match step
    case Ack(i, _) => i < |st.outstanding|
    case Reset(order) => Distinct(order) && Elems(order) == st.toReset
    case Consume(poll) => poll.Polled? ==> WellFormedBatch(poll.batch)
    case _ => true
  }

  function Next(st: State, env: Environment, cfg: Config, step: Step): State
    requires Enabled(st, step)
  {
    match step
    case Assign(ps, epoch) => OnPartitionsAssigned(st, env, ps, epoch).0
    case Revoke(ps, now) => OnPartitionsRevoked(st, env, cfg, ps, now)
    case Ack(i, positive) => Acknowledge(st, i, positive)
    case Commit(force, now) => CommitOffsets(st, env, cfg, force, now)
    case Reset(order) => ResetOffsets(st, env, order)
    case Consume(poll) => ConsumeRecords(st, env, cfg, poll)
  }

  /** No recorded range carries the unowned epoch. */
  predicate RecordedEpochs(q: seq<Offsets>)
  {
    forall o, e :: o in q && e in o ==> e.range.epoch != Unowned
  }

  function OwnedIndices(owned: map<TopicPartition, Epoch>): set<int>
  {
    set p | p in owned :: p.index
  }

  /**
   The whole-machine invariant: recorded epochs are never 0 (so an epoch match means
   ownership), every tracker belongs to the index of an owned partition, and, at step
   boundaries, the pending count is the number of acknowledgement sets whose callback
   has not fired.
   */
  predicate Inv(st: State)
  {
    && RecordedEpochs(st.outstanding)
    && RecordedEpochs(st.acknowledged)
    && st.trackers.Keys <= OwnedIndices(st.owned)
    && st.acksPending == |st.outstanding|
  }

  lemma InitialInv(now: int)
    ensures Inv(Initial(now))
  {
  }

  /** A range whose recorded epoch is not 0 is current only for an owned partition. */
  lemma CurrentImpliesOwned(owned: map<TopicPartition, Epoch>, e: Entry)
    requires e.range.epoch != Unowned && Current(owned, e)
    ensures e.partition in owned
  {
  }

  lemma CommitPreservesInv(st: State, env: Environment, cfg: Config, force: bool, now: int)
    requires Inv(st)
    ensures Inv(CommitOffsets(st, env, cfg, force, now))
  {
    if !cfg.autoCommit {
      var p := ProcessAcknowledgedOffsets(st, env);
      ProcessAcknowledgedOffsetsSpec(st, env);
      forall idx | idx in p.trackers
        ensures idx in OwnedIndices(st.owned)
      {
        if idx !in st.trackers {
          var t := p.trackers[idx];
          var o :| o in st.acknowledged && t.partition in MatchedPartitions(st.owned, o);
          var e :| e in o && Current(st.owned, e) && e.partition == t.partition;
          CurrentImpliesOwned(st.owned, e);
        }
      }
    }
  }

  lemma RevokePreservesInv(st: State, env: Environment, cfg: Config, ps: seq<TopicPartition>, now: int)
    requires Inv(st)
    ensures Inv(OnPartitionsRevoked(st, env, cfg, ps, now))
  {
    var c := CommitOffsets(st, env, cfg, true, now);
    CommitPreservesInv(st, env, cfg, true, now);
    RevokeSpec(st, env, cfg, ps, now);
    var r := OnPartitionsRevoked(st, env, cfg, ps, now);
    forall idx | idx in r.trackers
      ensures idx in OwnedIndices(r.owned)
    {
      var q :| q in c.owned && q.index == idx;
      assert q in ps ==> idx in RevokedIndices(st.owned, ps);
      assert q in r.owned;
    }
  }

  lemma AssignPreservesInv(st: State, env: Environment, ps: seq<TopicPartition>, epoch: Epoch)
    requires Inv(st)
    ensures Inv(OnPartitionsAssigned(st, env, ps, epoch).0)
  {
    var r := OnPartitionsAssigned(st, env, ps, epoch).0;
    assert OwnedIndices(st.owned) <= OwnedIndices(r.owned);
  }

  lemma AckPreservesInv(st: State, i: nat, positive: bool)
    requires Inv(st) && i < |st.outstanding|
    ensures Inv(Acknowledge(st, i, positive))
  {
    assert st.outstanding[i] in st.outstanding;
    var rest := st.outstanding[..i] + st.outstanding[i + 1..];
    assert forall o :: o in rest ==> o in st.outstanding;
  }

  lemma ResetPreservesInv(st: State, env: Environment, order: seq<TopicPartition>)
    requires Inv(st) && Distinct(order) && Elems(order) == st.toReset
    ensures Inv(ResetOffsets(st, env, order))
  {
  }

  lemma ConsumePreservesInv(st: State, env: Environment, cfg: Config, poll: PollResult)
    requires Inv(st) && (poll.Polled? ==> WellFormedBatch(poll.batch))
    ensures Inv(ConsumeRecords(st, env, cfg, poll))
  {
  }

  /** Every step keeps the invariant. */
  lemma NextPreservesInv(st: State, env: Environment, cfg: Config, step: Step)
    requires Inv(st) && Enabled(st, step)
    ensures Inv(Next(st, env, cfg, step))
  {
    match step
    case Assign(ps, epoch) => AssignPreservesInv(st, env, ps, epoch);
    case Revoke(ps, now) => RevokePreservesInv(st, env, cfg, ps, now);
    case Ack(i, positive) => AckPreservesInv(st, i, positive);
    case Commit(force, now) => CommitPreservesInv(st, env, cfg, force, now);
    case Reset(order) => ResetPreservesInv(st, env, order);
    case Consume(poll) => ConsumePreservesInv(st, env, cfg, poll);
  }

  /**
   Epoch isolation across a rebalance: ranges polled before `ps` was revoked and
   reassigned under a different epoch are stale afterwards, so acknowledging them
   positively changes nothing the next drain of the queue does.
   */
  lemma RebalanceIsolatesAcknowledgement(
    st: State, env: Environment, env': Environment, env'': Environment, cfg: Config,
    ps: seq<TopicPartition>, now: int, epoch': Epoch, o: Offsets)
    requires forall e :: e in o ==> e.partition in ps && e.range.epoch != Unowned && e.range.epoch != epoch'
    ensures var s := OnPartitionsAssigned(OnPartitionsRevoked(st, env, cfg, ps, now), env', ps, epoch').0;
      && (forall e :: e in o ==> !Current(s.owned, e))
      && ProcessAcknowledgedOffsets(s.(acknowledged := s.acknowledged + [o]), env'')
         == ProcessAcknowledgedOffsets(s, env'')
  {
    var s1 := OnPartitionsRevoked(st, env, cfg, ps, now);
    var s := OnPartitionsAssigned(s1, env', ps, epoch').0;
    RevokeSpec(st, env, cfg, ps, now);
    forall e | e in o
      ensures !Current(s.owned, e)
    {
      assert e.partition !in s1.owned;
    }
    StaleAcknowledgementIsNoOp(s, env'', o);
  }

  /**
   A negative acknowledgement followed by the next reset: each partition of the set is
   sought to its committed offset (or 0), loses its tracker when the seek goes through,
   and nothing stays pending.
   */
  lemma NegativeAcknowledgementResets(st: State, env: Environment, o: Offsets, order: seq<TopicPartition>)
    requires Distinct(order) && Elems(order) == st.toReset + Partitions(o)
    ensures var s := OnAcknowledgement(st, o, false);
      var r := ResetOffsets(s, env, order);
      && r.toReset == {}
      && (forall p :: p in Partitions(o) && ResetTarget(env.committed(p)).Some? ==>
            Seek(p, ResetTarget(env.committed(p)).value, env.seekAccepted(p, ResetTarget(env.committed(p)).value))
              in r.effects[|st.effects|..])
      && (forall p :: p in Partitions(o) && SeekSucceeds(env, p) ==> p.index !in r.trackers)
      && r.acknowledged == st.acknowledged
  {
  }
}

=== FILE: polling.dfy ===
/**
 One poll of the consumer (`consumeRecords` with `iterateRecordPartitions`): the
 offset range and epoch recorded per polled partition, and what happens to them
 with acknowledgements enabled or disabled.
 */
module Polling {
  import opened Wrappers
  import opened ConsumerState
  import opened OffsetCommit

  /** The records a poll returned for one partition, as their offsets in poll order. */
  datatype PartitionRecords = PartitionRecords(partition: TopicPartition, offsets: seq<Offset>)

  datatype PollResult =
    | Polled(batch: seq<PartitionRecords>)
    | AuthenticationFailure
    | DeserializationFailure(partition: TopicPartition, offset: Offset, schemaRegistry: bool)

  /** What the Kafka client guarantees of a poll: each polled partition once, with records. */
  predicate WellFormedBatch(b: seq<PartitionRecords>)
  {
    && (forall i :: 0 <= i < |b| ==> |b[i].offsets| > 0)
    && (forall i, j :: 0 <= i < j < |b| ==> b[i].partition != b[j].partition)
  }

  /** The range between the first and the last record of a partition. */
  function RangeOf(pr: PartitionRecords): (r: OffsetRange)
    requires |pr.offsets| > 0
    ensures r.min <= r.max
    ensures {r.min, r.max} == {pr.offsets[0], pr.offsets[|pr.offsets| - 1]}
  {
    Between(pr.offsets[0], pr.offsets[|pr.offsets| - 1])
  }

  /** The entry a partition's records produce under the partition's current epoch. */
  function EntryOf(owned: map<TopicPartition, Epoch>, pr: PartitionRecords): Entry
    requires |pr.offsets| > 0
  {
    Entry(pr.partition, CommitOffsetRange(RangeOf(pr), PartitionEpoch(owned, pr.partition)))
  }

  /** The offsets map built while iterating the polled partitions; unowned partitions are skipped. */
  function RecordBatch(owned: map<TopicPartition, Epoch>, b: seq<PartitionRecords>): (r: Offsets)
    requires forall i :: 0 <= i < |b| ==> |b[i].offsets| > 0
    // every recorded epoch is the partition's current epoch, and never the unowned epoch
    ensures forall e :: e in r ==> e.range.epoch != Unowned && e.range.epoch == PartitionEpoch(owned, e.partition)
    ensures |r| <= |b|
    decreases |b|
  {
    if |b| == 0 then []
    else
      var e := EntryOf(owned, b[0]);
      (if e.range.epoch == Unowned then [] else [e]) + RecordBatch(owned, b[1..])
  }

  /** Every recorded entry is the range of one polled partition, and an owned polled partition is always recorded. */
  lemma {:induction false} RecordBatchEntries(owned: map<TopicPartition, Epoch>, b: seq<PartitionRecords>)
    requires forall i :: 0 <= i < |b| ==> |b[i].offsets| > 0
    ensures var r := RecordBatch(owned, b);
      && (forall e :: e in r ==> exists i :: 0 <= i < |b| && e == EntryOf(owned, b[i]))
      && (forall i :: 0 <= i < |b| ==> (EntryOf(owned, b[i]) in r <==> PartitionEpoch(owned, b[i].partition) != Unowned))
    decreases |b|
  {
    if |b| > 0 {
      RecordBatchEntries(owned, b[1..]);
      var tail := RecordBatch(owned, b[1..]);
      forall x | x in tail
        ensures exists i :: 1 <= i < |b| && x == EntryOf(owned, b[i])
      {
        var j :| 0 <= j < |b[1..]| && x == EntryOf(owned, b[1..][j]);
        assert x == EntryOf(owned, b[j + 1]);
      }
      assert forall i :: 1 <= i < |b| ==> b[i] == b[1..][i - 1];
    }
  }

  lemma {:induction false} RecordBatchDistinct(owned: map<TopicPartition, Epoch>, b: seq<PartitionRecords>)
    requires WellFormedBatch(b)
    ensures DistinctPartitions(RecordBatch(owned, b))
    ensures Partitions(RecordBatch(owned, b)) <= set i | 0 <= i < |b| :: b[i].partition
    decreases |b|
  {
    if |b| > 0 {
      assert WellFormedBatch(b[1..]);
      RecordBatchDistinct(owned, b[1..]);
      var tail := RecordBatch(owned, b[1..]);
      assert forall i :: 1 <= i < |b| ==> b[i] == b[1..][i - 1];
      assert forall x :: x in tail ==> x.partition != b[0].partition by {
        forall x | x in tail ensures x.partition != b[0].partition {
          assert x.partition in Partitions(tail);
        }
      }
      var r := RecordBatch(owned, b);
      assert Partitions(r) <= {b[0].partition} + Partitions(tail);
    }
  }

  /** With acknowledgements disabled, each recorded range schedules `max + 1` for commit. */
  function ScheduleCommits(m: map<TopicPartition, Offset>, es: Offsets): (r: map<TopicPartition, Offset>)
    requires DistinctPartitions(es)
    ensures r.Keys == m.Keys + Partitions(es)
    ensures forall e :: e in es ==> r[e.partition] == e.range.offsets.max + 1
    ensures forall q :: q in m && q !in Partitions(es) ==> r[q] == m[q]
    decreases |es|
  {
    if |es| == 0 then m
    else
      var e := es[0];
      var r := ScheduleCommits(UpdateOffsetsToCommit(m, e.partition, Some(e.range.offsets.max + 1)), es[1..]);
      DistinctTail(es);
      r
  }

  lemma DistinctTail(es: Offsets)
    requires |es| > 0 && DistinctPartitions(es)
    ensures DistinctPartitions(es[1..])
    ensures Partitions(es) == {es[0].partition} + Partitions(es[1..])
    ensures forall x :: x in es[1..] ==> x.partition != es[0].partition
    ensures forall x :: x in es ==> x == es[0] || x in es[1..]
  {
    forall x | x in es[1..] ensures x.partition != es[0].partition {
      var j :| 0 <= j < |es[1..]| && es[1..][j] == x;
      assert es[j + 1] == x;
    }
  }

  /** Whether a poll carries records (a null or empty poll does nothing). */
  predicate HasRecords(poll: PollResult)
  {
    poll.Polled? && |poll.batch| > 0
  }

  /** `consumeRecords`: record the ranges of one poll, or handle the poll's failure. */
  function ConsumeRecords(st: State, env: Environment, cfg: Config, poll: PollResult): (r: State)
    requires poll.Polled? ==> WellFormedBatch(poll.batch)
    // ownership, trackers, the reset set and the acknowledged queue are never touched
    ensures r == st.(offsetsToCommit := r.offsetsToCommit, outstanding := r.outstanding,
                     acksPending := r.acksPending, effects := r.effects)
    ensures !HasRecords(poll) ==>
      r.offsetsToCommit == st.offsetsToCommit && r.outstanding == st.outstanding && r.acksPending == st.acksPending
    // acknowledgements enabled: one acknowledgement set for the batch's offsets map, counted as pending
    ensures HasRecords(poll) && cfg.acknowledgementsEnabled ==>
      && r.outstanding == st.outstanding + [RecordBatch(st.owned, poll.batch)]
      && r.acksPending == st.acksPending + 1
      && r.offsetsToCommit == st.offsetsToCommit
    // acknowledgements disabled: every recorded partition is scheduled at `max + 1`, nothing else changes
    ensures HasRecords(poll) && !cfg.acknowledgementsEnabled ==>
      && r.outstanding == st.outstanding && r.acksPending == st.acksPending
      && (forall i :: 0 <= i < |poll.batch| && PartitionEpoch(st.owned, poll.batch[i].partition) != Unowned ==>
            poll.batch[i].partition in r.offsetsToCommit &&
            r.offsetsToCommit[poll.batch[i].partition] == RangeOf(poll.batch[i]).max + 1)
      && (forall q :: q in st.offsetsToCommit && q !in Partitions(RecordBatch(st.owned, poll.batch)) ==>
            q in r.offsetsToCommit && r.offsetsToCommit[q] == st.offsetsToCommit[q])
      && r.offsetsToCommit.Keys == st.offsetsToCommit.Keys + Partitions(RecordBatch(st.owned, poll.batch))
    // an undecodable record outside the schema registry is skipped by seeking past it
    ensures poll.DeserializationFailure? && !poll.schemaRegistry ==>
      r.effects == st.effects + [Seek(poll.partition, poll.offset + 1, env.seekAccepted(poll.partition, poll.offset + 1))]
    ensures !(poll.DeserializationFailure? && !poll.schemaRegistry) ==> r.effects == st.effects
  {
    match poll
    case Polled(b) =>
      if |b| == 0 then st
      else
        var offsets := RecordBatch(st.owned, b);
        if cfg.acknowledgementsEnabled then
          st.(outstanding := st.outstanding + [offsets], acksPending := st.acksPending + 1)
        else
          RecordBatchEntries(st.owned, b);
          RecordBatchDistinct(st.owned, b);
          st.(offsetsToCommit := ScheduleCommits(st.offsetsToCommit, offsets))
    case AuthenticationFailure => st
    case DeserializationFailure(p, o, schemaRegistry) =>
      if schemaRegistry then st
      else st.(effects := st.effects + [Seek(p, o + 1, env.seekAccepted(p, o + 1))])
  }
}

=== FILE: rebalance.dfy ===
/**
 Partition ownership: the rebalance callbacks `onPartitionsAssigned` and
 `onPartitionsRevoked`, which maintain the ownership epochs and discard commit
 trackers that can no longer be trusted.
 */
module Rebalance {
  import opened ConsumerState
  import opened OffsetCommit
  import opened PartitionReset

  // ---------------------------------------------------------------------------
  // onPartitionsAssigned

  /**
   `onPartitionsAssigned(ps)`, with the epoch read from the clock once for the call.
   Already-owned partitions are skipped; a new one gets the call's
   epoch and loses any tracker for its index. The `committed` lookup made for logging
   is not caught, so a lookup that throws ends the loop: the second component is false
   and the partitions before it stay assigned.
   */
  function OnPartitionsAssigned(st: State, env: Environment, ps: seq<TopicPartition>, epoch: Epoch): (r: (State, bool))
    ensures r.0 == st.(owned := r.0.owned, trackers := r.0.trackers)
    ensures st.owned.Keys <= r.0.owned.Keys
    ensures forall p :: p in st.owned ==> r.0.owned[p] == st.owned[p]
    ensures r.0.trackers.Keys <= st.trackers.Keys
    ensures forall i :: i in r.0.trackers ==> r.0.trackers[i] == st.trackers[i]
    // a partition owned only afterwards was in `ps` and carries the call's epoch
    ensures forall p :: p in r.0.owned && p !in st.owned ==> p in ps && r.0.owned[p] == epoch
    decreases |ps|
  {
    if |ps| == 0 then (st, true)
    else
      var p := ps[0];
      if p in st.owned then OnPartitionsAssigned(st, env, ps[1..], epoch)
      else if env.committed(p).LookupFails? then (st, false)
      else OnPartitionsAssigned(st.(owned := st.owned[p := epoch], trackers := st.trackers - {p.index}), env, ps[1..], epoch)
  }

  /** The partitions `ps` makes newly owned. */
  function Fresh(owned: map<TopicPartition, Epoch>, ps: seq<TopicPartition>): set<TopicPartition>
  {
    set p | p in ps && p !in owned
  }

  /** Reference definition of a completed assignment of `ps`, stated on sets and maps. */
  function AssignedRef(st: State, ps: seq<TopicPartition>, epoch: Epoch): State
  {
    st.(owned := map p | p in st.owned.Keys + Elems(ps) :: if p in st.owned then st.owned[p] else epoch,
        trackers := st.trackers - (set p | p in Fresh(st.owned, ps) :: p.index))
  }

  /** Whether `p` ends the assignment loop: it is unowned and its committed-offset lookup throws. */
  predicate Aborts(st: State, env: Environment, p: TopicPartition)
  {
    p !in st.owned && env.committed(p).LookupFails?
  }

  lemma AssignedRefEmpty(st: State, epoch: Epoch)
    ensures AssignedRef(st, [], epoch) == st
  {
    var r := AssignedRef(st, [], epoch);
    assert Elems([]) == {};
    assert r.owned == st.owned;
    assert Fresh(st.owned, []) == {};
    assert r.trackers == st.trackers;
  }

  lemma AssignedRefSkipOwned(st: State, ps: seq<TopicPartition>, k: nat, epoch: Epoch)
    requires 0 < k <= |ps| && ps[0] in st.owned
    ensures AssignedRef(st, ps[1..k], epoch) == AssignedRef(st, ps[..k], epoch)
  {
    assert Elems(ps[..k]) == {ps[0]} + Elems(ps[1..k]) by {
      assert ps[..k] == [ps[0]] + ps[1..k];
    }
    assert Fresh(st.owned, ps[..k]) == Fresh(st.owned, ps[1..k]) by {
      assert ps[..k] == [ps[0]] + ps[1..k];
    }
  }

  lemma OwnedAfterStep(owned: map<TopicPartition, Epoch>, p: TopicPartition, rest: seq<TopicPartition>, epoch: Epoch)
    requires p !in owned
    ensures var o1 := owned[p := epoch];
      (map q | q in o1.Keys + Elems(rest) :: if q in o1 then o1[q] else epoch)
      == (map q | q in owned.Keys + Elems([p] + rest) :: if q in owned then owned[q] else epoch)
  {
    assert Elems([p] + rest) == {p} + Elems(rest);
  }

  lemma FreshIndicesStep(owned: map<TopicPartition, Epoch>, p: TopicPartition, rest: seq<TopicPartition>, epoch: Epoch)
    requires p !in owned
    ensures (set q | q in Fresh(owned, [p] + rest) :: q.index)
         == {p.index} + (set q | q in Fresh(owned[p := epoch], rest) :: q.index)
  {
    assert Fresh(owned, [p] + rest) == {p} + Fresh(owned[p := epoch], rest);
  }

  lemma AssignedRefStep(st: State, ps: seq<TopicPartition>, k: nat, epoch: Epoch)
    requires 0 < k <= |ps| && ps[0] !in st.owned
    ensures var s1 := st.(owned := st.owned[ps[0] := epoch], trackers := st.trackers - {ps[0].index});
      AssignedRef(s1, ps[1..k], epoch) == AssignedRef(st, ps[..k], epoch)
  {
    var p := ps[0];
    assert ps[..k] == [p] + ps[1..k];
    OwnedAfterStep(st.owned, p, ps[1..k], epoch);
    FreshIndicesStep(st.owned, p, ps[1..k], epoch);
  }

  /**
   The assignment loop processes exactly the prefix before the first partition whose
   lookup throws, and on that prefix it is the reference assignment.
   */
  lemma {:induction false} AssignPrefixSpec(st: State, env: Environment, ps: seq<TopicPartition>, epoch: Epoch, k: nat)
    requires k <= |ps|
    requires k < |ps| ==> Aborts(st, env, ps[k])
    requires forall j :: 0 <= j < k ==> !Aborts(st, env, ps[j])
    ensures OnPartitionsAssigned(st, env, ps, epoch) == (AssignedRef(st, ps[..k], epoch), k == |ps|)
    decreases |ps|
  {
    if |ps| == 0 {
      AssignedRefEmpty(st, epoch);
    } else if ps[0] in st.owned {
      TailPrefix(st, env, ps, k);
      AssignPrefixSpec(st, env, ps[1..], epoch, k - 1);
      AssignStepOwned(st, env, ps, epoch, k);
    } else if env.committed(ps[0]).LookupFails? {
      AssignedRefEmpty(st, epoch);
    } else {
      var s1 := st.(owned := st.owned[ps[0] := epoch], trackers := st.trackers - {ps[0].index});
      TailPrefix(st, env, ps, k);
      AbortsAfterStep(st, s1, env, ps, k);
      AssignPrefixSpec(s1, env, ps[1..], epoch, k - 1);
      AssignStepFresh(st, env, ps, epoch, k);
    }
  }

  lemma TailPrefix(st: State, env: Environment, ps: seq<TopicPartition>, k: nat)
    requires 0 < |ps| && k <= |ps| && !Aborts(st, env, ps[0])
    requires k < |ps| ==> Aborts(st, env, ps[k])
    requires forall j :: 0 <= j < k ==> !Aborts(st, env, ps[j])
    ensures 0 < k
    ensures k - 1 < |ps[1..]| ==> Aborts(st, env, ps[1..][k - 1])
    ensures forall j :: 0 <= j < k - 1 ==> !Aborts(st, env, ps[1..][j])
  {
  }

  lemma AbortsAfterStep(st: State, s1: State, env: Environment, ps: seq<TopicPartition>, k: nat)
    requires 0 < k <= |ps| && !Aborts(st, env, ps[0])
    requires s1.owned.Keys == st.owned.Keys + {ps[0]}
    requires k < |ps| ==> Aborts(st, env, ps[k])
    requires forall j :: 0 <= j < k - 1 ==> !Aborts(st, env, ps[1..][j])
    ensures k - 1 < |ps[1..]| ==> Aborts(s1, env, ps[1..][k - 1])
    ensures forall j :: 0 <= j < k - 1 ==> !Aborts(s1, env, ps[1..][j])
  {
  }

  lemma AssignStepOwned(st: State, env: Environment, ps: seq<TopicPartition>, epoch: Epoch, k: nat)
    requires 0 < k <= |ps| && ps[0] in st.owned
    requires OnPartitionsAssigned(st, env, ps[1..], epoch) == (AssignedRef(st, ps[1..][..k - 1], epoch), k - 1 == |ps[1..]|)
    ensures OnPartitionsAssigned(st, env, ps, epoch) == (AssignedRef(st, ps[..k], epoch), k == |ps|)
  {
    assert ps[1..][..k - 1] == ps[1..k];
    AssignedRefSkipOwned(st, ps, k, epoch);
  }

  lemma AssignStepFresh(st: State, env: Environment, ps: seq<TopicPartition>, epoch: Epoch, k: nat)
    requires 0 < k <= |ps| && ps[0] !in st.owned && !env.committed(ps[0]).LookupFails?
    requires var s1 := st.(owned := st.owned[ps[0] := epoch], trackers := st.trackers - {ps[0].index});
      OnPartitionsAssigned(s1, env, ps[1..], epoch) == (AssignedRef(s1, ps[1..][..k - 1], epoch), k - 1 == |ps[1..]|)
    ensures OnPartitionsAssigned(st, env, ps, epoch) == (AssignedRef(st, ps[..k], epoch), k == |ps|)
  {
    assert ps[1..][..k - 1] == ps[1..k];
    AssignedRefStep(st, ps, k, epoch);
  }

  /**
   A completed assignment: owned partitions keep their epoch, every new partition gets
   the call's single epoch and loses the tracker for its index, nothing else changes.
   */
  lemma AssignSpec(st: State, env: Environment, ps: seq<TopicPartition>, epoch: Epoch)
    requires forall p :: p in ps ==> !Aborts(st, env, p)
    ensures var (r, completed) := OnPartitionsAssigned(st, env, ps, epoch);
      && completed
      && r.owned.Keys == st.owned.Keys + Elems(ps)
      && (forall p :: p in st.owned ==> r.owned[p] == st.owned[p])
      && (forall p :: p in ps && p !in st.owned ==> r.owned[p] == epoch && p.index !in r.trackers)
      && (forall i :: i in st.trackers && i !in (set p | p in Fresh(st.owned, ps) :: p.index) ==>
            i in r.trackers && r.trackers[i] == st.trackers[i])
      && r == st.(owned := r.owned, trackers := r.trackers)
  {
    AssignPrefixSpec(st, env, ps, epoch, |ps|);
    assert ps[..|ps|] == ps;
    var r := OnPartitionsAssigned(st, env, ps, epoch).0;
    forall p | p in ps && p !in st.owned
      ensures p.index !in r.trackers
    {
      assert p in Fresh(st.owned, ps);
    }
  }

  /** Duplicate assignment notifications are no-ops, whatever epoch the repeat carries. */
  lemma AssignIdempotent(st: State, env: Environment, ps: seq<TopicPartition>, epoch: Epoch, epoch': Epoch)
    requires forall p :: p in ps ==> !Aborts(st, env, p)
    ensures var r := OnPartitionsAssigned(st, env, ps, epoch).0;
      OnPartitionsAssigned(r, env, ps, epoch') == (r, true)
  {
    AssignSpec(st, env, ps, epoch);
    var r := OnPartitionsAssigned(st, env, ps, epoch).0;
    AllOwnedSkipped(r, env, ps, epoch');
  }

  lemma {:induction false} AllOwnedSkipped(st: State, env: Environment, ps: seq<TopicPartition>, epoch: Epoch)
    requires forall p :: p in ps ==> p in st.owned
    ensures OnPartitionsAssigned(st, env, ps, epoch) == (st, true)
    decreases |ps|
  {
    if |ps| > 0 {
      assert ps[0] in ps;
      AllOwnedSkipped(st, env, ps[1..], epoch);
    }
  }

  // ---------------------------------------------------------------------------
  // onPartitionsRevoked

  function RevokeOne(st: State, p: TopicPartition): State
  {
    if p !in st.owned then st
    else st.(owned := st.owned - {p}, trackers := st.trackers - {p.index})
  }

  /** The revocation loop: an unowned partition is skipped. */
  function RevokeAll(st: State, ps: seq<TopicPartition>): State
    decreases |ps|
  {
    if |ps| == 0 then st else RevokeAll(RevokeOne(st, ps[0]), ps[1..])
  }

  /** `onPartitionsRevoked(ps)`: a forced commit first, then the revocation loop. */
  function OnPartitionsRevoked(st: State, env: Environment, cfg: Config, ps: seq<TopicPartition>, now: int): (r: State)
    // every revoked partition is no longer owned; every other partition keeps its epoch
    ensures forall p :: p in ps ==> p !in r.owned
    ensures forall p :: p in st.owned && p !in ps ==> p in r.owned && r.owned[p] == st.owned[p]
    // nothing is left to commit unless the broker commits on its own
    ensures !cfg.autoCommit ==> r.acknowledged == [] && r.offsetsToCommit == map[]
  {
    var c := CommitOffsets(st, env, cfg, true, now);
    RevokeAllSpec(c, ps);
    RevokeAll(c, ps)
  }

  /** The tracker indices the revocation of `ps` discards: those of owned partitions only. */
  function RevokedIndices(owned: map<TopicPartition, Epoch>, ps: seq<TopicPartition>): set<int>
  {
    set p | p in ps && p in owned :: p.index
  }

  /** Reference definition of the revocation loop, stated on sets and maps. */
  lemma {:induction false} RevokeAllSpec(st: State, ps: seq<TopicPartition>)
    ensures RevokeAll(st, ps) == st.(owned := st.owned - Elems(ps), trackers := st.trackers - RevokedIndices(st.owned, ps))
    decreases |ps|
  {
    if |ps| == 0 {
      assert Elems(ps) == {};
      assert RevokedIndices(st.owned, ps) == {};
      assert st.owned - Elems(ps) == st.owned;
      assert st.trackers - RevokedIndices(st.owned, ps) == st.trackers;
    } else {
      var p := ps[0];
      var s1 := RevokeOne(st, p);
      RevokeAllSpec(s1, ps[1..]);
      assert Elems(ps) == {p} + Elems(ps[1..]);
      assert forall q :: q in ps <==> q == p || q in ps[1..];
      if p in st.owned {
        assert RevokedIndices(st.owned, ps) == {p.index} + RevokedIndices(s1.owned, ps[1..]);
        assert s1.owned - Elems(ps[1..]) == st.owned - Elems(ps);
      } else {
        assert RevokedIndices(st.owned, ps) == RevokedIndices(s1.owned, ps[1..]);
        assert st.owned - Elems(ps[1..]) == st.owned - Elems(ps);
      }
    }
  }

  /**
   Revocation: the forced flush happens first, with the pending offsets of the revoked
   partitions in it; afterwards every revoked partition reads epoch 0, the trackers of
   the owned ones are gone, and an unowned partition in `ps` changes nothing.
   */
  lemma RevokeSpec(st: State, env: Environment, cfg: Config, ps: seq<TopicPartition>, now: int)
    ensures var c := CommitOffsets(st, env, cfg, true, now);
      var r := OnPartitionsRevoked(st, env, cfg, ps, now);
      && c.owned == st.owned
      && r == c.(owned := st.owned - Elems(ps), trackers := c.trackers - RevokedIndices(st.owned, ps))
      && (forall p :: p in ps ==> PartitionEpoch(r.owned, p) == Unowned)
      && (forall p :: p in ps && p in st.owned ==> p.index !in r.trackers)
      && (forall i :: i in c.trackers && i !in RevokedIndices(st.owned, ps) ==> i in r.trackers && r.trackers[i] == c.trackers[i])
  {
    var c := CommitOffsets(st, env, cfg, true, now);
    RevokeAllSpec(c, ps);
    forall p | p in ps && p in st.owned
      ensures p.index in RevokedIndices(st.owned, ps)
    {
    }
  }

  /** Revoking only partitions that are not owned does nothing beyond the forced flush. */
  lemma RevokeUnowned(st: State, env: Environment, cfg: Config, ps: seq<TopicPartition>, now: int)
    requires forall p :: p in ps ==> p !in st.owned
    ensures OnPartitionsRevoked(st, env, cfg, ps, now) == CommitOffsets(st, env, cfg, true, now)
  {
    RevokeAllSkipsUnowned(CommitOffsets(st, env, cfg, true, now), ps);
  }

  lemma {:induction false} RevokeAllSkipsUnowned(st: State, ps: seq<TopicPartition>)
    requires forall p :: p in ps ==> p !in st.owned
    ensures RevokeAll(st, ps) == st
    decreases |ps|
  {
    if |ps| > 0 {
      assert ps[0] in ps;
      RevokeAllSkipsUnowned(st, ps[1..]);
    }
  }

  /** Flush before revoke: with offsets pending, the first call made is the commit of all of them. */
  lemma RevokeFlushesFirst(st: State, env: Environment, cfg: Config, ps: seq<TopicPartition>, now: int)
    requires !cfg.autoCommit
    requires |ProcessAcknowledgedOffsets(st, env).offsetsToCommit| != 0
    ensures var pending := ProcessAcknowledgedOffsets(st, env).offsetsToCommit;
      var r := OnPartitionsRevoked(st, env, cfg, ps, now);
      && r.effects == st.effects + [CommitSync(pending, env.commitAccepted(pending))]
      && r.offsetsToCommit == map[]
      && r.lastCommitTime == now
  {
    var c := CommitOffsets(st, env, cfg, true, now);
    RevokeAllSpec(c, ps);
  }
}

=== FILE: reset.dfy ===
/**
 The reset path (`resetOffsets`): partitions that received a negative acknowledgement
 are sought back to their last committed offset and lose their commit tracker.
 */
module PartitionReset {
  import opened Wrappers
  import opened ConsumerState

  function Elems(s: seq<TopicPartition>): set<TopicPartition>
  {
    set x | x in s
  }

  predicate Distinct(s: seq<TopicPartition>)
  {
    forall i, j :: 0 <= i < j < |s| ==> s[i] != s[j]
  }

  /** The lookup did not throw and the seek to the reset target was accepted. */
  predicate SeekSucceeds(env: Environment, p: TopicPartition)
  {
    var target := ResetTarget(env.committed(p));
    target.Some? && env.seekAccepted(p, target.value)
  }

  /** The tracker indices a reset of `ps` discards: those whose seek went through. */
  function ResetIndices(env: Environment, ps: set<TopicPartition>): set<int>
  {
    set p | p in ps && SeekSucceeds(env, p) :: p.index
  }

  /** Whether `eff` is a seek of a partition of `ps` to its reset target, with the seek's outcome. */
  predicate IsResetSeek(env: Environment, ps: set<TopicPartition>, eff: Effect)
  {
    && eff.Seek?
    && eff.partition in ps
    && ResetTarget(env.committed(eff.partition)) == Some(eff.offset)
    && eff.accepted == env.seekAccepted(eff.partition, eff.offset)
  }

  /** Every effect is a seek, and no partition is sought twice. */
  predicate DistinctSeeks(effs: seq<Effect>)
  {
    && (forall i :: 0 <= i < |effs| ==> effs[i].Seek?)
    && (forall i, j :: 0 <= i < j < |effs| ==> effs[i].partition != effs[j].partition)
  }

  /** One partition of the reset loop; a throwing lookup or seek is caught and logged. */
  function SeekOne(st: State, env: Environment, p: TopicPartition): State
  {
    st.(effects := st.effects + SeekFor(env, p),
        trackers := if SeekSucceeds(env, p) then st.trackers - {p.index} else st.trackers)
  }

  /** The seek a reset issues for `p`, if its committed-offset lookup does not throw. */
  function SeekFor(env: Environment, p: TopicPartition): seq<Effect>
  {
    match ResetTarget(env.committed(p))
    case None => []
    case Some(o) => [Seek(p, o, env.seekAccepted(p, o))]
  }

  /** The seeks issued for `ps`, in order. */
  function ResetSeeks(env: Environment, ps: seq<TopicPartition>): seq<Effect>
    decreases |ps|
  {
    if |ps| == 0 then [] else SeekFor(env, ps[0]) + ResetSeeks(env, ps[1..])
  }

  /** The reset loop over the partitions in iteration order. */
  function SeekAll(st: State, env: Environment, ps: seq<TopicPartition>): (r: State)
    ensures r.effects == st.effects + ResetSeeks(env, ps)
    ensures r == st.(effects := r.effects, trackers := r.trackers)
    decreases |ps|
  {
    if |ps| == 0 then
      st
    else
      var r := SeekAll(SeekOne(st, env, ps[0]), env, ps[1..]);
      assert st.effects + SeekFor(env, ps[0]) + ResetSeeks(env, ps[1..]) == st.effects + ResetSeeks(env, ps);
      r
  }

  lemma {:induction false} SeekAllTrackers(st: State, env: Environment, ps: seq<TopicPartition>)
    ensures SeekAll(st, env, ps).trackers == st.trackers - ResetIndices(env, Elems(ps))
    decreases |ps|
  {
    if |ps| == 0 {
      assert ResetIndices(env, Elems(ps)) == {};
    } else {
      var s1 := SeekOne(st, env, ps[0]);
      SeekAllTrackers(s1, env, ps[1..]);
      ResetIndicesCons(env, ps);
      assert s1.trackers == st.trackers - (if SeekSucceeds(env, ps[0]) then {ps[0].index} else {});
    }
  }

  lemma ResetIndicesCons(env: Environment, ps: seq<TopicPartition>)
    requires |ps| > 0
    ensures ResetIndices(env, Elems(ps)) ==
      (if SeekSucceeds(env, ps[0]) then {ps[0].index} else {}) + ResetIndices(env, Elems(ps[1..]))
  {
    assert Elems(ps) == {ps[0]} + Elems(ps[1..]);
  }

  /**
   Each seek is of a partition of `ps` to its reset target, every partition whose lookup
   works gets one, and over distinct partitions no partition is sought twice.
   */
  lemma {:induction false} ResetSeeksSpec(env: Environment, ps: seq<TopicPartition>)
    ensures |ResetSeeks(env, ps)| <= |ps|
    ensures forall eff :: eff in ResetSeeks(env, ps) ==> IsResetSeek(env, Elems(ps), eff)
    ensures forall p :: p in ps && ResetTarget(env.committed(p)).Some? ==>
      Seek(p, ResetTarget(env.committed(p)).value, env.seekAccepted(p, ResetTarget(env.committed(p)).value))
        in ResetSeeks(env, ps)
    ensures Distinct(ps) ==> DistinctSeeks(ResetSeeks(env, ps))
    decreases |ps|
  {
    if |ps| > 0 {
      ResetSeeksSpec(env, ps[1..]);
      var head := SeekFor(env, ps[0]);
      assert ResetSeeks(env, ps) == head + ResetSeeks(env, ps[1..]);
      assert forall p :: p in ps ==> p == ps[0] || p in ps[1..];
      assert Elems(ps[1..]) <= Elems(ps);
      if Distinct(ps) {
        DistinctHead(env, ps);
      }
    }
  }

  /** The head's seek, if any, is of `ps[0]`, which no seek of the tail touches. */
  lemma DistinctHead(env: Environment, ps: seq<TopicPartition>)
    requires |ps| > 0 && Distinct(ps)
    requires forall eff :: eff in ResetSeeks(env, ps[1..]) ==> IsResetSeek(env, Elems(ps[1..]), eff)
    requires Distinct(ps[1..]) ==> DistinctSeeks(ResetSeeks(env, ps[1..]))
    ensures DistinctSeeks(ResetSeeks(env, ps))
  {
    var head := SeekFor(env, ps[0]);
    var tail := ResetSeeks(env, ps[1..]);
    assert ResetSeeks(env, ps) == head + tail;
    assert Distinct(ps[1..]);
    assert ps[0] !in Elems(ps[1..]);
    forall j | 0 <= j < |tail|
      ensures tail[j].Seek? && tail[j].partition != ps[0]
    {
      assert tail[j] in tail;
    }
  }

  /** `resetOffsets`: seek every pending partition, then clear the pending set unconditionally. */
  function ResetOffsets(st: State, env: Environment, order: seq<TopicPartition>): (r: State)
    requires Distinct(order) && Elems(order) == st.toReset
    // nothing pending: nothing happens
    ensures |st.toReset| == 0 ==> r == st
    // the pending set is left empty, even for partitions whose lookup or seek failed
    ensures r.toReset == {}
    // only trackers of partitions that were sought successfully are discarded; nothing else changes
    ensures r == st.(toReset := {}, effects := r.effects, trackers := st.trackers - ResetIndices(env, st.toReset))
    // one seek at most per pending partition, each to its committed offset (or 0)
    ensures |st.effects| <= |r.effects| <= |st.effects| + |st.toReset|
    ensures r.effects[..|st.effects|] == st.effects
    ensures forall eff :: eff in r.effects[|st.effects|..] ==> IsResetSeek(env, st.toReset, eff)
    ensures DistinctSeeks(r.effects[|st.effects|..])
    ensures forall p :: p in st.toReset && ResetTarget(env.committed(p)).Some? ==>
      Seek(p, ResetTarget(env.committed(p)).value, env.seekAccepted(p, ResetTarget(env.committed(p)).value))
        in r.effects[|st.effects|..]
  {
    if |st.toReset| == 0 then
      assert ResetIndices(env, st.toReset) == {};
      assert st.trackers - ResetIndices(env, st.toReset) == st.trackers;
      st
    else
      DistinctCard(order);
      SeekAllTrackers(st, env, order);
      ResetSeeksSpec(env, order);
      var r := SeekAll(st, env, order).(toReset := {});
      assert r.effects[|st.effects|..] == ResetSeeks(env, order);
      r
  }

  lemma {:induction false} DistinctCard(s: seq<TopicPartition>)
    requires Distinct(s)
    ensures |Elems(s)| == |s|
    decreases |s|
  {
    if |s| > 0 {
      DistinctCard(s[1..]);
      assert Elems(s) == {s[0]} + Elems(s[1..]);
      assert s[0] !in Elems(s[1..]);
    }
  }
}

=== FILE: state.dfy ===
/**
 The bookkeeping state of one Kafka source consumer, and the environment it talks to.

 Everything the consumer mutates lives in `State`; the Kafka client, the commit
 tracker's answers and the acknowledgement manager's pending callbacks are outside
 the consumer and appear here only as the `Environment` (answers to queries) and
 as an effect log (seeks and commits issued).
 */
module ConsumerState {
  import opened Wrappers

  /** Kafka offsets are non-negative. */
  type Offset = nat

  /** An ownership epoch; the value `Unowned` is what an unowned partition reads as. */
  type Epoch = int

  const Unowned: Epoch := 0

  datatype TopicPartition = TopicPartition(topic: string, index: int)

  /** A closed interval of offsets, `min <= max` when built with `Between`. */
  datatype OffsetRange = OffsetRange(min: Offset, max: Offset)

  /** Builds the closed range spanned by two offsets, whichever order they come in. */
  function Between(a: Offset, b: Offset): (r: OffsetRange)
    ensures r.min <= r.max
    ensures {r.min, r.max} == {a, b}
  {
    if a <= b then OffsetRange(a, b) else OffsetRange(b, a)
  }

  /** A polled range together with the epoch of the partition when it was polled. */
  datatype CommitOffsetRange = CommitOffsetRange(offsets: OffsetRange, epoch: Epoch)

  datatype Entry = Entry(partition: TopicPartition, range: CommitOffsetRange)

  /** The `{partition -> range}` map of one acknowledgement set, in iteration order. */
  type Offsets = seq<Entry>

  function Partitions(o: Offsets): set<TopicPartition>
  {
    set e | e in o :: e.partition
  }

  /** Partitions of an offsets map are pairwise distinct (it is a map). */
  predicate DistinctPartitions(o: Offsets)
  {
    forall i, j :: 0 <= i < j < |o| ==> o[i].partition != o[j].partition
  }

  /**
   A commit tracker, represented by what it was built from and what it has been fed:
   the partition, the committed offset it was seeded with, and the completed ranges
   in the order they were added. What it answers is an environment function of this.
   */
  datatype CommitTracker = CommitTracker(partition: TopicPartition, seed: Option<Offset>, completed: seq<OffsetRange>)

  /** The answer of `consumer.committed(partition)`: it may throw, return null, or an offset. */
  datatype Committed = LookupFails | NothingCommitted | CommittedAt(offset: Offset)

  /** The seed a new tracker gets from a lookup that did not throw. */
  function Seed(c: Committed): (r: Option<Offset>)
    requires !c.LookupFails?
    ensures r.None? <==> c.NothingCommitted?
    ensures r.Some? ==> r.value == c.offset
  {
    if c.CommittedAt? then Some(c.offset) else None
  }

  /** Where a reset seeks a partition to: its committed offset, or 0 when there is none. */
  function ResetTarget(c: Committed): (r: Option<Offset>)
    ensures r.None? <==> c.LookupFails?
    ensures c.NothingCommitted? ==> r == Some(0)
    ensures c.CommittedAt? ==> r == Some(c.offset)
  {
    match c
    case LookupFails => None
    case NothingCommitted => Some(0)
    case CommittedAt(o) => Some(o)
  }

  datatype Environment = Environment(
    committed: TopicPartition -> Committed,
    seekAccepted: (TopicPartition, Offset) -> bool,
    commitAccepted: map<TopicPartition, Offset> -> bool,
    addCompleted: CommitTracker -> Option<Offset>)

  /** Calls into the Kafka client that change the broker or the fetch position. */
  datatype Effect =
    | Seek(partition: TopicPartition, offset: Offset, accepted: bool)
    | CommitSync(offsets: map<TopicPartition, Offset>, accepted: bool)

  datatype Config = Config(autoCommit: bool, commitInterval: int, acknowledgementsEnabled: bool)

  datatype State = State(
    owned: map<TopicPartition, Epoch>,          // ownedPartitionsEpoch
    trackers: map<int, CommitTracker>,          // partitionCommitTrackerMap, keyed by partition index
    offsetsToCommit: map<TopicPartition, Offset>,
    toReset: set<TopicPartition>,               // partitionsToReset
    acknowledged: seq<Offsets>,                 // acknowledgedOffsets
    lastCommitTime: int,
    acksPending: int,                           // numberOfAcksPending
    outstanding: seq<Offsets>,                  // acknowledgement sets whose callback has not fired
    effects: seq<Effect>)

  /** The epoch of a partition, `Unowned` when it is not owned. */
  function PartitionEpoch(owned: map<TopicPartition, Epoch>, p: TopicPartition): Epoch
  {
    if p in owned then owned[p] else Unowned
  }

  /** A consumer that owns nothing and has nothing pending; `now` is its first commit time. */
  function Initial(now: int): State
  {
    State(map[], map[], map[], {}, [], now, 0, [], [])
  }
}

=== FILE: wrappers.dfy ===
/** The optional value used where the consumer deals with a Java `null`. */
module Wrappers {

  datatype Option<+T> = None | Some(value: T)
}
